=== FILE: README.md ===
# Eksplorasa API: browse engine and customer/restaurant handlers in Dafny

This project models the request-handling core of a food-rescue marketplace
API. The API runs as AWS Lambda handlers over PostgreSQL. The model has two parts.

- **The restaurant browse engine** (`lambda/browse_api.py`). This is a pipeline of pure steps:
  - `parse_query_parameters` turns the query-string map into an optional-field filter set;
  - `build_restaurant_query` accumulates WHERE conditions and `$n`-numbered positional parameters;
  - `build_order_by_clause` maps `sort` to a single ORDER BY clause;
  - `apply_distance_filter` is an order-preserving post-filter on the fetched rows;
  - the handler ties these together around one SELECT.
- **Three request handlers:**
  - the customer-profile update (`lambda/update_customer_profile.py`): its validation cascade and dynamic `UPDATE ... SET`;
  - the customer-profile creation (`lambda/create_customer_profile.py`): the missing-field check, the INSERT and the 409/500 classification of database errors;
  - the restaurant detail lookup (`lambda/customer_restaurant_detail.py`): id resolution from path then query, check order, and 404/400/500 mapping.

Modules, one per file:

| module | file | contents |
|---|---|---|
| `Opt` | `opt.dfy` | `Option`, and `Nullable` (missing / `null` / present) for event keys |
| `Seqs` | `seqs.dfy` | order-preserving `Filter`, `Subsequence`, and their characterisation |
| `PyStr` | `pystr.dfy` | Python's `strip`, `split`, `join` and `in` on strings, and a `lower` that covers ASCII letters and KELVIN SIGN only, which is exact for the handler's `"duplicate key"` test (see "Left out") |
| `Json` | `json.dfy` | parsed JSON values, Python truthiness, `dict.get`, type names |
| `Http` | `http.dfy` | the event, exceptions, responses, and the trace of what a handler did with its connection |
| `Filters` | `filters.dfy` | `parse_query_parameters` |
| `Query` | `query.dfy` | `build_restaurant_query`, `build_order_by_clause`, and what the WHERE clause means |
| `Distance` | `distance.dfy` | `apply_distance_filter` |
| `Browse` | `browse.dfy` | the browse `handler` |
| `CustomerUpdate` | `customer_update.dfy` | the update `handler` |
| `CustomerCreate` | `customer_create.dfy` | the create `handler` |
| `RestaurantDetail` | `restaurant_detail.dfy` | the detail `handler` |

The SQL text is not modelled. A query is a list of condition fragments. Each
fragment carries the placeholder indices it uses. The query also holds the
parameter list and an ORDER BY value.

`Query.Admits` is an independent reading of what a filter set asks for. It is
stated on one `Restaurant LEFT JOIN Inventory` row. `Query.QueryMeaning` proves
that the built conditions, each placeholder looked up in the parameter list,
accept exactly the rows `Admits` accepts.

Everything outside the program is a parameter of the model:

- `num: string -> Option<real>` stands for Python's `float()` on a string (`None` for a `ValueError`);
- `dist` stands for the haversine distance;
- `clock` stands for PostgreSQL's `::time` cast;
- `parse` stands for `json.loads`.

Each database interaction is a given reply, either `Fetched(value)` or `Raised(exception)`. A reply is consumed only if the handler gets that far.

Each handler returns its response together with a trace of `Open`, `Exec(statement)`, `Commit` and `Close` events. Properties such as "no UPDATE ran" or "validated before connecting" are stated on that trace.

Python's own error texts are written as CPython 3.12 phrases them. This covers the `TypeError` and `AttributeError` messages raised when a JSON body has an unexpected shape.

## Model

| member | source | states |
|---|---|---|
| Filters.Text | lambda/browse_api.py:146-153 | a text parameter is set exactly when its key is present with a non-empty value, and then holds that value |
| Filters.Number | lambda/browse_api.py:155-165 | a numeric parameter is set exactly when it is given and parses; a value `float()` rejects is dropped, never raised |
| Filters.Unbracket | lambda/browse_api.py:177-178 | one pair of brackets is removed only when the string both starts with `[` and ends with `]`; otherwise the string is unchanged |
| Filters.ParseList | lambda/browse_api.py:174-179 | a list parameter has one element per comma plus one |
| Filters.ParsedElementsClean | lambda/browse_api.py:179 | every parsed element is whitespace-trimmed and holds no comma |
| Filters.BracketedMatchesBare | lambda/browse_api.py:174-187 | `[s]` and `s` parse to the same list for any `s` that is not itself bracketed |
| Filters.ParseJoined | lambda/browse_api.py:179 | for a joined string not wrapped in brackets, a comma-joined list of comma-free parts parses to the trimmed parts, one per part |
| Filters.ParseJoinedClean | lambda/browse_api.py:179 | a comma-joined list of already trimmed, comma-free parts parses back to exactly those parts |
| Filters.SpacedListExample | lambda/browse_api.py:179 | `"a, b,c"` gives `["a","b","c"]` |
| Filters.ListEncodingsAgree | lambda/browse_api.py:174-187 | `"[a, b,c]"` and `"a,b,c"` both give `["a","b","c"]` |
| Filters.EmptyBracketsGiveOneEmptyElement | lambda/browse_api.py:174-179 | `"[]"` gives the one-element list `[""]`, not an unset field |
| Filters.OrderPrices | lambda/browse_api.py:167-171 | after ordering, min ≤ max whenever both are present; the result is the input pair or its swap, and a swap happens only when both are present and min > max |
| Filters.ParseFilters | lambda/browse_api.py:142-207 | `sort`, `timeStart`, `timeEnd` and the two lists are unset exactly when their key is absent or empty, and otherwise `sort` and the times hold the given string; a numeric field is unset when its key is absent or empty or `float()` fails on it; lists are `ParseList` of the value; geographic fields are their parsed numbers; prices are the ordered pair of the parsed bounds |
| Filters.EmptyParamsUnconstrained | lambda/browse_api.py:142-207 | an empty query string yields the filter set with every field unset |
| Filters.SwapScenario | lambda/browse_api.py:167-187 | `cuisines=[Italian,Thai]`, `minPrice=5`, `maxPrice=2` gives cuisines `["Italian","Thai"]`, min 2 and max 5 |
| Query.BuildQuery | lambda/browse_api.py:209-250 | the conditions are live, cuisines, min price, max price, bag types, then two time tests, each exactly when its filter is set; the placeholder indices across all conditions, in order, are exactly 1..\|params\|; the parameters are cuisines, min, max, bag types, start, end; the ORDER BY is the one `sort` selects |
| Query.PlaceholdersExactlyOnce | lambda/browse_api.py:212-247 | each index 1..\|params\| is used by exactly one placeholder, and no placeholder points outside the parameter list |
| Query.LiveFirst | lambda/browse_api.py:211 | `r.liveflag = true` is the first condition whatever the filters |
| Query.GeoNotInQuery | lambda/browse_api.py:209-247 | maxDistance, latitude and longitude change neither the conditions nor the parameters |
| Query.TimeOnlyWhenBothGiven | lambda/browse_api.py:241-247 | a time condition appears exactly when both `timeStart` and `timeEnd` are set |
| Query.PriceBoundsIndependent | lambda/browse_api.py:223-231 | each price bound yields its condition exactly when that bound is set, independently of the other, a bound of 0.0 included |
| Query.QueryMeaning | lambda/browse_api.py:209-247 | the built WHERE clause, read against the parameter list, accepts a joined row exactly when the filter set admits it: live, cuisine listed, price within each bound, bag type listed, and both times inside the item's ordering window |
| Query.OrderFor | lambda/browse_api.py:285-299 | a recognised `sort` value selects the clause whose key is that value; an absent, empty or unrecognised one gives rating descending |
| Query.SortKeyFor | lambda/browse_api.py:290-297 | every ORDER BY clause has a recognised `sort` key that selects it |
| Query.OrderByMapping | lambda/browse_api.py:285-299 | each of the six keys selects its own clause and no two keys select the same one; an absent, empty or unrecognised `sort` gives rating descending |
| Distance.DistanceFilter | lambda/browse_api.py:315-331 | when any of maxDistance, latitude, longitude is missing or zero, the rows are returned unchanged; otherwise the result is an order-preserving subsequence in which each row appears exactly as often as in the input if its distance is ≤ maxDistance (bound included), and not at all otherwise |
| Distance.ApplyDistanceFilter | lambda/browse_api.py:315-331 | the one-pass loop returns exactly `DistanceFilter` of its input |
| Distance.OrZero | lambda/browse_api.py:325-326 | `float(v) if v else 0.0` on a nullable number (row coordinates, and in the response also the rating and prices): a missing value reads as 0.0 and a present one as itself |
| Browse.Handle | lambda/browse_api.py:12-140 | a 200 happens exactly when connecting and the query succeed; it carries the distance-filtered rows, reshaped, their count (never more than the fetched rows) and the parsed filters; the only statement is the SELECT built from the parsed query string; a failed connect yields the 500 of the generic `except` clauses with nothing opened; a failed query yields that 500 after opening and executing, with no close |
| Browse.ToView | lambda/browse_api.py:66-86 | each column goes to its own field (ids, name, cuisine, image URLs, description, live flag); rating, latitude, longitude and both prices read as 0.0 when NULL or zero and as their value otherwise; a NULL bag-type array becomes empty and a present one is kept |
| Http.Unhandled | lambda/browse_api.py:114-140 | a `pg8000.Error` becomes 500 "Database error occurred", any other exception 500 "Internal server error", with the exception's text as message |
| CustomerUpdate.Validate | lambda/update_customer_profile.py:36-86 | the cascade runs customer id, then body, then `json.loads`, then field membership, then at-least-one-field, each failing with its own 400 (or the 500 of the exception it raises), and proceeds only with the id, the parsed body and the provided fields |
| CustomerUpdate.ProvidedFieldsMeaning | lambda/update_customer_profile.py:71-72 | the provided fields are an order-preserving sublist of name, phone, address; a field is in it exactly when the body mentions it, and for a JSON object exactly when it is a key, whatever its value |
| CustomerUpdate.ProvidedFieldsOnce | lambda/update_customer_profile.py:71-72 | no field is provided twice |
| CustomerUpdate.NullValueIsProvided | lambda/update_customer_profile.py:72 | a body `{"customer_name": null}` provides `customer_name` |
| CustomerUpdate.UpdateBinding | lambda/update_customer_profile.py:107-122 | the UPDATE has one placeholder per provided field plus one for the WHERE, and each is bound to the body's value for its column, the last to the customer id |
| CustomerUpdate.Apply | lambda/update_customer_profile.py:88-160 | each outcome of the existence check and what follows it decides the response: a raised check is a 500; no row gives 404 "Customer not found" with only the existence check executed; a list or string body gives the `TypeError` 500; for an object body, a raised UPDATE, an UPDATE returning no row and a raised commit are 500s; an UPDATE returning a row and a commit that succeeds give 200 with that row. Conversely, a 200 executed the existence check and then the UPDATE of the provided fields, committed and closed |
| CustomerUpdate.Handle | lambda/update_customer_profile.py:10-188 | a failed connect is a 500 with nothing opened; any rejection by the cascade happens after connecting and before any statement |
| CustomerUpdate.NotFoundNoUpdate | lambda/update_customer_profile.py:88-104 | a 404 means the existence check was the only statement, so no UPDATE ran |
| CustomerUpdate.SuccessfulUpdate | lambda/update_customer_profile.py:106-160 | a 200 updated exactly the provided fields, at least one, bound to the body's values and then the customer id, and the connection was released |
| CustomerCreate.MissingFieldsMeaning | lambda/create_customer_profile.py:54-55 | the missing fields are an order-preserving sublist of name, phone, address holding exactly those whose value is absent or falsy; none is missing exactly when all three are truthy |
| CustomerCreate.OnlyNameGiven | lambda/create_customer_profile.py:54-67 | a body holding only a name yields "Missing required fields: customer_phone_number, customer_address" |
| CustomerCreate.InsertValues | lambda/create_customer_profile.py:73-80 | the INSERT parameters are the body's name, phone number and address, in that order |
| CustomerCreate.Classify | lambda/create_customer_profile.py:117-158 | 409 exactly for a database error whose lower-cased text contains "duplicate key"; every other exception gets the generic 500 |
| CustomerCreate.DuplicateKeyIsConflict | lambda/create_customer_profile.py:121 | a database error mentioning "duplicate key" in any letter case, anywhere in its text, is a 409 |
| CustomerCreate.Validate | lambda/create_customer_profile.py:36-69 | the body check, `json.loads`, `.get` on a non-object and the missing-field check fail in that order, and proceeding implies all three fields are truthy |
| CustomerCreate.Handle | lambda/create_customer_profile.py:10-158 | once the request is valid, an INSERT error, an INSERT returning no row and a commit error each get the response `Classify` gives, and an INSERT returning a row followed by a successful commit gives 201 with that row; conversely, a 201 executed exactly the INSERT of the body's three values, committed and closed; a 400 executed no statement |
| CustomerCreate.CreatedWithRequiredValues | lambda/create_customer_profile.py:53-115 | a 201 inserted exactly `[name, phone, address]` from a JSON object body, all three truthy |
| RestaurantDetail.Resolve | lambda/customer_restaurant_detail.py:18-25 | an id comes from the path when the path has it non-empty, otherwise from the query, if the query has it |
| RestaurantDetail.NotFoundNamesBoth | lambda/customer_restaurant_detail.py:91-100 | the 404 message contains both the restaurant id and the branch id |
| RestaurantDetail.Catch | lambda/customer_restaurant_detail.py:114-142 | a `ValueError` is exactly the 400 "Invalid parameter value: …"; a database error and any other exception are the generic 500s |
| RestaurantDetail.Handle | lambda/customer_restaurant_detail.py:16-142 | a missing restaurant id is a 400 before the branch id is looked at, both before connecting (empty trace); with both ids present and the connection open, a lookup error goes through `Catch`, no row gives 404 naming both ids, and a found row gives 200 with that row; conversely, a 404 or 200 came after the one lookup and released the connection |
| Seqs.FilterCharacterization | lambda/browse_api.py:320-331 | the selection is a subsequence of the input holding each kept element as often as the input and no other |
| PyStr.Strip | lambda/browse_api.py:179 | `strip()` leaves no whitespace at either end |
| PyStr.StripPadded | lambda/browse_api.py:179 | `strip()` removes exactly the surrounding whitespace of a string whose core has none at its ends |
| PyStr.Split | lambda/browse_api.py:179 | `split(',')` gives one piece per comma plus one, none holding a comma |
| PyStr.JoinSplit | lambda/browse_api.py:179 | joining the pieces of a split with the separator restores the input |
| PyStr.SplitJoin | lambda/browse_api.py:179 | splitting a join of separator-free pieces gives the pieces back |
| PyStr.ContainsIff | lambda/create_customer_profile.py:121 | `sub in s` holds exactly when `sub` occurs at some index of `s` |
| CustomerUpdate.MissingIdLeavesConnectionOpen | lambda/update_customer_profile.py:39-51 | as written: a request without a customer id is answered 400 with the connection opened and never closed |
| CustomerUpdate.HandleReleasing | lambda/update_customer_profile.py:10-188 | corrected: same responses and statements, and the connection is closed on every exit path; a request rejected before the SELECT opens and then closes the connection and does nothing else |
| CustomerCreate.MissingBodyLeavesConnectionOpen | lambda/create_customer_profile.py:37-49 | as written: a request without a body is answered 400 with the connection opened and never closed |
| CustomerCreate.HandleReleasing | lambda/create_customer_profile.py:10-158 | corrected: same responses and statements, and the connection is closed on every exit path; a request rejected before the INSERT opens and then closes the connection and does nothing else |
| RestaurantDetail.FailedLookupLeavesConnectionOpen | lambda/customer_restaurant_detail.py:73-86 | as written: an error raised by the lookup skips the close |
| RestaurantDetail.HandleReleasing | lambda/customer_restaurant_detail.py:16-142 | corrected: same responses and statements, and the connection is closed on every exit path; a failed lookup is followed by the close |
| Browse.FailedQueryLeavesConnectionOpen | lambda/browse_api.py:50-91 | as written: an error raised by the query skips the close |
| Browse.HandleReleasing | lambda/browse_api.py:12-140 | corrected: same responses and statements, and the connection is closed on every exit path; a failed query is followed by the close |

## Left out

- `calculate_distance` (lambda/browse_api.py:301-313): the haversine trigonometry is floating point; the model takes the distance as a parameter `dist` and only compares it with `maxDistance`.
- Python's `float()` grammar (signs, exponents, `inf`, `nan`) is the parameter `num`; parse results are exact reals, not IEEE doubles.
- `json.loads` is the parameter `parse`; JSON numbers are integers or exact reals.
- The SQL text itself: the SELECT list, the join, `GROUP BY`, `DISTINCT` and the aggregates (`MIN`, `MAX`, `ARRAY_AGG`) are not modelled. `Query.QueryMeaning` speaks of the WHERE clause on joined rows before grouping, and the fetched rows are a parameter.
- Query.QueryMeaning: the `::time` cast is the parameter `clock` and a time of day is an integer; PostgreSQL's rejection of a malformed time string (an error raised by the query) is the `Raised` reply of the browse handler, not a property of the WHERE clause.
- The database itself: connecting, executing, fetching, committing and closing are given replies and a trace. Configuration from environment variables is folded into the `connect` reply; an invalid `DB_PORT` is its `ValueError`.
- PyStr.Lower: lowers only `A`..`Z` and KELVIN SIGN (U+212A); other cased characters such as `É` keep their case, and `İ` (U+0130), which Python lowers to the two characters `i` U+0307, is kept as it is. For its one use, asking whether "duplicate key" occurs in the lowered error text, the answer is the same: no other character lowers to an ASCII letter, and the `i` from `İ` is always followed by U+0307, never by the `c` the word needs.
- Browse.ToView: an `ARRAY_AGG` result holding a NULL element (a restaurant without inventory) is not distinguished from a list of bag-type strings.
- Browse.Handle: a `ValueError` from the distance function (a math domain error) is not modelled, since `dist` is total.
- CORS headers, logging, and `json.dumps` of the response body (including `default=str`) are not modelled; a response is a status and an error/message pair or a payload.
- `lambda/main.py`, `lambda/customer_homepage.py` and `lambda/get_customer_profile.py` are not part of this model.
- Concurrency: the unprotected window between the update handler's existence check and its UPDATE is not modelled. The UPDATE's reply may be "no row", which the model answers with the `TypeError` the handler would raise.
- The exact text of the `TypeError` for a missing UPDATE/INSERT result (`dict(zip(names, None))`) follows CPython 3.12 and may differ on other interpreter versions.

Three behaviours of the code that are easy to miss:

- the geographic filter is gated by truthiness, so a latitude, longitude or maxDistance of `0` switches it off (`Distance.GeoActive`, `Distance.ZeroLatitudeKeepsAll`);
- a list parameter `"[]"` yields the one-element list `[""]` rather than an unset filter;
- the create and update handlers open the database connection before validating the request, while the detail handler validates first.

## Findings

| source | as written | input that shows it | evidently intended | confidence | as-written member | corrected member |
|---|---|---|---|---|---|---|
| lambda/update_customer_profile.py:39-104 | the 400 and 404 early returns and both `except` clauses return without `cursor.close()`/`connection.close()` | an event with no path parameters and a reachable database: 400 "Customer ID is required" with the connection left open | the connection is released on every exit path | not executed; high | CustomerUpdate.MissingIdLeavesConnectionOpen | CustomerUpdate.HandleReleasing |
| lambda/create_customer_profile.py:37-69 | the 400 early returns and all `except` clauses return without closing the connection | an event with no body and a reachable database: 400 "Request body is required" with the connection left open | the connection is released on every exit path | not executed; high | CustomerCreate.MissingBodyLeavesConnectionOpen | CustomerCreate.HandleReleasing |
| lambda/customer_restaurant_detail.py:73-86 | an exception from `execute`/`fetchone` jumps past the close | valid ids and a lookup raising `pg8000.Error`: 500 with the connection left open | the connection is released on every exit path | not executed; high | RestaurantDetail.FailedLookupLeavesConnectionOpen | RestaurantDetail.HandleReleasing |
| lambda/browse_api.py:50-91 | an exception from `execute`/`fetchall` jumps past the close | any query string and a query raising `pg8000.Error`: 500 with the connection left open | the connection is released on every exit path | not executed; high | Browse.FailedQueryLeavesConnectionOpen | Browse.HandleReleasing |

=== FILE: browse.dfy ===
/** The browse endpoint's `handler`: parse the query string, build and run the
    query, post-filter by distance, reshape each row, answer 200. The
    database is a pair of given replies (to connecting and to the query), so
    the handler is a function of the event and those replies. */
module Browse {
  import opened Opt
  import opened Http
  import opened Filters
  import opened Query
  import opened Distance

  /** The one statement the handler executes. */
  datatype Statement = SelectRestaurants(query: SqlQuery)

  /** A row reshaped for the response; the nullable numbers become `0.0`
      and a NULL bag-type array becomes empty. */
  datatype View = View(
    id: string,
    branchId: string,
    name: string,
    cuisine: string,
    rating: real,
    mainImageUrl: string,
    logoUrl: string,
    latitude: real,
    longitude: real,
    description: string,
    isLive: bool,
    priceMin: real,
    priceMax: real,
    availableBagTypes: seq<string>)

  /** The response body: the views, their count, and the parsed filters. */
  datatype BrowseResult = BrowseResult(restaurants: seq<View>, totalCount: int, appliedFilters: FilterSet)

  function ToView(row: Row): (v: View)
    ensures v.id == row.restaurantId && v.branchId == row.branchId && v.isLive == row.live
    ensures row.rating.Some? ==> v.rating == row.rating.value
    ensures row.rating.None? ==> v.rating == 0.0
    ensures v.name == row.name && v.cuisine == row.cuisine && v.description == row.description
    ensures v.mainImageUrl == row.mainImageUrl && v.logoUrl == row.logoUrl
    ensures v.latitude == OrZero(row.latitude) && v.longitude == OrZero(row.longitude)
    ensures v.priceMin == OrZero(row.minPrice) && v.priceMax == OrZero(row.maxPrice)
    ensures row.bagTypes.None? ==> v.availableBagTypes == []
    ensures row.bagTypes.Some? ==> v.availableBagTypes == row.bagTypes.value
  {
    View(
      id := row.restaurantId,
      branchId := row.branchId,
      name := row.name,
      cuisine := row.cuisine,
      rating := OrZero(row.rating),
      mainImageUrl := row.mainImageUrl,
      logoUrl := row.logoUrl,
      latitude := OrZero(row.latitude),
      longitude := OrZero(row.longitude),
      description := row.description,
      isLive := row.live,
      priceMin := OrZero(row.minPrice),
      priceMax := OrZero(row.maxPrice),
      availableBagTypes := row.bagTypes.GetOr([]))
  }

  function Views(rows: seq<Row>): (vs: seq<View>)
    ensures |vs| == |rows|
    ensures forall i :: 0 <= i < |rows| ==> vs[i] == ToView(rows[i])
  {
    seq(|rows|, i requires 0 <= i < |rows| => ToView(rows[i]))
  }

  /** `event.get('queryStringParameters') or {}`. */
  function QueryParams(event: Event): map<string, string> {
    event.queryStringParameters.OrElse(map[])
  }

  /** `handler` of the browse endpoint. `connect` is the outcome of opening the
      connection (an invalid `DB_PORT` raises there too), `fetched` the rows
      the query returns or the error it raises; `num` is `float()` on a
      string and `dist` the distance function. */
  function Handle(event: Event, connect: DbReply<()>, fetched: DbReply<seq<Row>>,
                  num: string -> Option<real>, dist: (real, real, real, real) -> real)
    : (o: Outcome<BrowseResult, Statement>)
    ensures o.response.status == 200 || o.response.status == 500
    ensures connect.Raised? ==> o.trace == [] && o.response == Unhandled(connect.error)
    ensures connect.Fetched? ==> Statements(o.trace) == [SelectRestaurants(BuildQuery(ParseFilters(QueryParams(event), num)))]
    ensures o.response.status == 200 <==> connect.Fetched? && fetched.Fetched?
    ensures connect.Fetched? && fetched.Raised? ==>
      && o.response == Unhandled(fetched.error)
      && o.trace == [Open, Exec(SelectRestaurants(BuildQuery(ParseFilters(QueryParams(event), num))))]
    ensures o.response.status == 200 ==>
      var f := ParseFilters(QueryParams(event), num);
      && o.response.body.Success?
      && o.response.body.payload.appliedFilters == f
      && o.response.body.payload.restaurants == Views(DistanceFilter(fetched.value, f, dist))
      && o.response.body.payload.totalCount == |o.response.body.payload.restaurants| <= |fetched.value|
      && Released(o.trace)
  {
    if connect.Raised? then Outcome(Unhandled(connect.error), [])
    else
      var f := ParseFilters(QueryParams(event), num);
      var stmt := SelectRestaurants(BuildQuery(f));
      StatementsOfSessions(stmt, stmt);
      assert [Open, Exec(stmt), Close][0].Open?;
      match fetched
      case Raised(e) => Outcome(Unhandled(e), [Open, Exec(stmt)])
      case Fetched(rows) =>
        var kept := DistanceFilter(rows, f, dist);
        var views := Views(kept);
        Outcome(Response(200, Success(BrowseResult(views, |views|, f))), [Open, Exec(stmt), Close])
  }

  // ---------------------------------------------------------------------------
  // Connection release.

  /** As written, an error raised by the query skips the close: the request
      is answered 500 with the connection still open. */
  lemma FailedQueryLeavesConnectionOpen(event: Event, e: Exc, num: string -> Option<real>,
                                        dist: (real, real, real, real) -> real)
    ensures var o := Handle(event, Fetched(()), Raised(e), num, dist);
      o.response == Unhandled(e) && !Released(o.trace)
  {
    var o := Handle(event, Fetched(()), Raised(e), num, dist);
    var stmt := SelectRestaurants(BuildQuery(ParseFilters(QueryParams(event), num)));
    assert o.trace == [Open, Exec(stmt)];
    assert o.trace[0].Open? && o.trace[1].Exec?;
  }

  /** The handler with the connection closed on every exit path: the same
      responses and statements, and a trace that always ends closed. */
  function HandleReleasing(event: Event, connect: DbReply<()>, fetched: DbReply<seq<Row>>,
                           num: string -> Option<real>, dist: (real, real, real, real) -> real)
    : (o: Outcome<BrowseResult, Statement>)
    ensures Released(o.trace)
    ensures o.response == Handle(event, connect, fetched, num, dist).response
    ensures Statements(o.trace) == Statements(Handle(event, connect, fetched, num, dist).trace)
    ensures connect.Fetched? && fetched.Raised? ==>
      o.trace == [Open, Exec(SelectRestaurants(BuildQuery(ParseFilters(QueryParams(event), num)))), Close]
  {
    var o := Handle(event, connect, fetched, num, dist);
    ReleaseOpenSessions(SelectRestaurants(BuildQuery(ParseFilters(QueryParams(event), num))));
    Outcome(o.response, Release(o.trace))
  }
}

=== FILE: customer_create.dfy ===
/** The customer-profile creation endpoint's `handler`: the body check, the
    list of missing required fields and its message, the INSERT and its
    parameters, and the classification of database errors (409 for a
    duplicate key, 500 otherwise). */
module CustomerCreate {
  import opened Opt
  import opened Json
  import opened Http
  import opened Seqs
  import opened PyStr

  /** The fields a new customer needs, in the order messages and the INSERT use. */
  const Required: seq<string> := ["customer_name", "customer_phone_number", "customer_address"]

  const BodyRequired := "Request body is required"
  const MissingPrefix := "Missing required fields: "
  const NoneNotIterable := "'NoneType' object is not iterable"

  /** Python's AttributeError for `.get` on a parsed body that is not a dict. */
  function NoGet(v: JsonValue): string {
    "'" + TypeName(v) + "' object has no attribute 'get'"
  }

  /** A customer row as `RETURNING` gives it back. */
  datatype Customer = Customer(customerId: string, name: string, phone: string, address: string)

  /** The one statement: `INSERT ... VALUES (%s, %s, %s)` bound to `values`. */
  datatype Statement = InsertCustomer(values: seq<JsonValue>)

  /** `missing_fields`: the required fields whose value is absent or falsy. */
  function MissingFields(fields: map<string, JsonValue>): seq<string> {
    Filter(Required, (k: string) => !Truthy(Get(fields, k)))
  }

  /** The missing fields are exactly the required ones the body leaves absent
      or falsy, in the fixed order. */
  lemma MissingFieldsMeaning(fields: map<string, JsonValue>)
    ensures Subsequence(MissingFields(fields), Required)
    ensures forall k :: k in MissingFields(fields) <==> k in Required && !Truthy(Get(fields, k))
    ensures MissingFields(fields) == [] <==> forall k :: k in Required ==> Truthy(Get(fields, k))
  {
    var p := (k: string) => !Truthy(Get(fields, k));
    FilterCharacterization(Required, p);
    FilterMembership(Required, p);
    if MissingFields(fields) != [] {
      assert MissingFields(fields)[0] in MissingFields(fields);
    }
  }

  function MissingMessage(missing: seq<string>): string {
    MissingPrefix + Join(missing, ", ")
  }

  lemma OnlyNameMissing(fields: map<string, JsonValue>)
    requires fields == map["customer_name" := JStr("Ana")]
    ensures MissingFields(fields) == ["customer_phone_number", "customer_address"]
  {
    var p := (k: string) => !Truthy(Get(fields, k));
    assert !p("customer_name");
    assert p("customer_phone_number");
    assert p("customer_address");
    FilterSnoc(["customer_name"], "customer_phone_number", p);
    FilterSnoc(["customer_name", "customer_phone_number"], "customer_address", p);
    assert ["customer_name"] + ["customer_phone_number"] == ["customer_name", "customer_phone_number"];
    assert ["customer_name", "customer_phone_number"] + ["customer_address"] == Required;
    assert Filter(["customer_name"], p) == [] by {
      assert ["customer_name"][1..] == [];
    }
  }

  lemma TwoMissingMessage(missing: seq<string>)
    requires missing == ["customer_phone_number", "customer_address"]
    ensures MissingMessage(missing) == "Missing required fields: customer_phone_number, customer_address"
  {
    assert missing[1..] == ["customer_address"];
    assert Join(missing, ", ") == "customer_phone_number" + ", " + "customer_address";
  }

  /** A body holding only a name lists the phone number and then the address. */
  lemma OnlyNameGiven(fields: map<string, JsonValue>)
    requires fields == map["customer_name" := JStr("Ana")]
    ensures MissingMessage(MissingFields(fields)) == "Missing required fields: customer_phone_number, customer_address"
  {
    OnlyNameMissing(fields);
    TwoMissingMessage(MissingFields(fields));
  }

  /** The INSERT's parameters: name, phone number, address. */
  function InsertValues(fields: map<string, JsonValue>): (vals: seq<JsonValue>)
    ensures |vals| == |Required|
    ensures forall i :: 0 <= i < |Required| ==> vals[i] == Get(fields, Required[i])
  {
    [Get(fields, "customer_name"), Get(fields, "customer_phone_number"), Get(fields, "customer_address")]
  }

  const Duplicate := "duplicate key"

  /** The two `except` clauses: a `pg8000.Error` whose text, lower-cased,
      contains "duplicate key" is a conflict (409); any other database error
      and any other exception is a 500. */
  function Classify(e: Exc): (r: Response<Customer>)
    ensures r.status == 409 <==> e.PgError? && Contains(Lower(e.msg), Duplicate)
    ensures r.status == 409 ==> r.body == Failure("Conflict", "Customer with this information already exists")
    ensures r.status != 409 ==> r == Unhandled(e)
  {
    if e.PgError? && Contains(Lower(e.msg), Duplicate) then
      Response(409, Failure("Conflict", "Customer with this information already exists"))
    else Unhandled(e)
  }

  lemma LowerConcat(a: string, b: string)
    ensures Lower(a + b) == Lower(a) + Lower(b)
  {
  }

  /** A database error mentioning a duplicate key in any letter case is a
      conflict, wherever the words appear in its text. */
  lemma DuplicateKeyIsConflict(before: string, words: string, after: string)
    requires Lower(words) == Duplicate
    ensures Classify(PgError(before + words + after)).status == 409
  {
    LowerConcat(before + words, after);
    LowerConcat(before, words);
    ContainsMiddle(Lower(before), Duplicate, Lower(after));
  }

  /** The same text outside a database error is not a conflict. */
  lemma OnlyDatabaseErrorsConflict(msg: string)
    ensures Classify(ValueErr(msg)).status == 500 && Classify(OtherErr(msg)).status == 500
  {
  }

  /** What the checks before the INSERT decide. */
  datatype Checked = Reject(response: Response<Customer>) | Proceed(fields: map<string, JsonValue>)

  predicate BodyGiven(event: Event) {
    event.body.Present? && event.body.value != ""
  }

  /** The body check, `json.loads` (`parse`), `.get` on the result, and the
      missing-field check, in that order. */
  function Validate(event: Event, parse: string -> JsonParse): (c: Checked)
    ensures !BodyGiven(event) ==> c == Reject(BadRequest(BodyRequired))
    ensures BodyGiven(event) && parse(event.body.value).Malformed? ==>
      c == Reject(Classify(ValueErr(parse(event.body.value).message)))
    ensures BodyGiven(event) && parse(event.body.value).Parsed? ==>
      var v := parse(event.body.value).value;
      && (!v.JObj? ==> c == Reject(Classify(OtherErr(NoGet(v)))))
      && (v.JObj? && MissingFields(v.fields) != [] ==> c == Reject(BadRequest(MissingMessage(MissingFields(v.fields)))))
      && (v.JObj? && MissingFields(v.fields) == [] ==> c == Proceed(v.fields))
    ensures c.Proceed? ==> forall k :: k in Required ==> Truthy(Get(c.fields, k))
  {
    if !BodyGiven(event) then Reject(BadRequest(BodyRequired))
    else match parse(event.body.value)
      case Malformed(msg) => Reject(Classify(ValueErr(msg)))
      case Parsed(v) =>
        if !v.JObj? then Reject(Classify(OtherErr(NoGet(v))))
        else if MissingFields(v.fields) != [] then Reject(BadRequest(MissingMessage(MissingFields(v.fields))))
        else
          MissingFieldsMeaning(v.fields);
          Proceed(v.fields)
  }

  /** `handler` of the create endpoint. The database answers are given:
      `connect`, `inserted` (the returned row, if any) and `commit`. */
  function Handle(event: Event, parse: string -> JsonParse, connect: DbReply<()>,
                  inserted: DbReply<Option<Customer>>, commit: DbReply<()>)
    : (o: Outcome<Customer, Statement>)
    ensures connect.Raised? ==> o == Outcome(Classify(connect.error), [])
    ensures connect.Fetched? && Validate(event, parse).Reject? ==>
      o == Outcome(Validate(event, parse).response, [Open])
    ensures connect.Fetched? && Validate(event, parse).Proceed? ==>
      && (inserted.Raised? ==> o.response == Classify(inserted.error))
      && (inserted.Fetched? && inserted.value.None? ==> o.response == Classify(OtherErr(NoneNotIterable)))
      && (inserted.Fetched? && inserted.value.Some? && commit.Raised? ==> o.response == Classify(commit.error))
      && (inserted.Fetched? && inserted.value.Some? && commit.Fetched? ==>
            o.response == Response(201, Success(inserted.value.value)))
    ensures o.response.status == 400 ==> Statements(o.trace) == []
    ensures o.response.status == 201 ==>
      var c := Validate(event, parse);
      && c.Proceed?
      && Statements(o.trace) == [InsertCustomer(InsertValues(c.fields))]
      && Commit in o.trace && Released(o.trace)
      && inserted.Fetched? && inserted.value.Some?
      && o.response.body == Success(inserted.value.value)
    ensures o.response.status in {201, 400, 409, 500}
  {
    if connect.Raised? then Outcome(Classify(connect.error), [])
    else match Validate(event, parse)
      case Reject(r) =>
        StatementsOfSessions(InsertCustomer([]), InsertCustomer([]));
        Outcome(r, [Open])
      case Proceed(fields) =>
        var insert := InsertCustomer(InsertValues(fields));
        var trace := [Open, Exec(insert)];
        StatementsOfSessions(insert, insert);
        if inserted.Raised? then Outcome(Classify(inserted.error), trace)
        else if inserted.value.None? then Outcome(Classify(OtherErr(NoneNotIterable)), trace)
        else if commit.Raised? then Outcome(Classify(commit.error), trace)
        else
          assert trace + [Commit, Close] == [Open, Exec(insert), Commit, Close];
          assert (trace + [Commit, Close])[0].Open?;
          Outcome(Response(201, Success(inserted.value.value)), trace + [Commit, Close])
  }

  /** A 201 inserted exactly the body's name, phone number and address, in that order, all truthy. */
  lemma CreatedWithRequiredValues(event: Event, parse: string -> JsonParse, connect: DbReply<()>,
                                  inserted: DbReply<Option<Customer>>, commit: DbReply<()>)
    requires Handle(event, parse, connect, inserted, commit).response.status == 201
    ensures var v := parse(event.body.value).value;
      && BodyGiven(event) && parse(event.body.value).Parsed? && v.JObj?
      && Statements(Handle(event, parse, connect, inserted, commit).trace)
         == [InsertCustomer([v.fields["customer_name"], v.fields["customer_phone_number"], v.fields["customer_address"]])]
      && Truthy(v.fields["customer_name"]) && Truthy(v.fields["customer_phone_number"]) && Truthy(v.fields["customer_address"])
  {
    var c := Validate(event, parse);
    assert c.Proceed?;
    assert "customer_name" in Required && "customer_phone_number" in Required && "customer_address" in Required;
  }

  // ---------------------------------------------------------------------------
  // Connection release.

  /** As written, the early returns leave the connection open: a request
      without a body is answered 400 with the connection never closed. */
  lemma MissingBodyLeavesConnectionOpen(parse: string -> JsonParse, inserted: DbReply<Option<Customer>>, commit: DbReply<()>)
    ensures var o := Handle(Event(Missing, Missing, Missing), parse, Fetched(()), inserted, commit);
      o.response == BadRequest(BodyRequired) && o.trace == [Open] && !Released(o.trace)
  {
    var o := Handle(Event(Missing, Missing, Missing), parse, Fetched(()), inserted, commit);
    assert o.trace[0].Open?;
  }

  /** The handler with the connection closed on every exit path: the same
      responses and statements, and a trace that always ends closed. */
  function HandleReleasing(event: Event, parse: string -> JsonParse, connect: DbReply<()>,
                           inserted: DbReply<Option<Customer>>, commit: DbReply<()>)
    : (o: Outcome<Customer, Statement>)
    ensures Released(o.trace)
    ensures o.response == Handle(event, parse, connect, inserted, commit).response
    ensures Statements(o.trace) == Statements(Handle(event, parse, connect, inserted, commit).trace)
    ensures connect.Fetched? && Validate(event, parse).Reject? ==> o.trace == [Open, Close]
  {
    var o := Handle(event, parse, connect, inserted, commit);
    ReleaseOpenSessions(InsertCustomer([]));
    Outcome(o.response, Release(o.trace))
  }
}

=== FILE: customer_update.dfy ===
/** The customer-profile update endpoint's `handler`: the validation cascade
    (customer id, then body, then at least one updatable field, then the
    customer's existence) and the dynamic `UPDATE ... SET` it then runs. */
module CustomerUpdate {
  import opened Opt
  import opened Json
  import opened Http
  import opened Seqs
  import PyStr

  /** The columns the endpoint may update, in the order the SET list uses. */
  const Updatable: seq<string> := ["customer_name", "customer_phone_number", "customer_address"]

  const IdRequired := "Customer ID is required"
  const BodyRequired := "Request body is required"
  const NoFields := "At least one field must be provided for update"

  /** Python's wording for the errors the handler does not anticipate. */
  const NoneHasNoGet := "'NoneType' object has no attribute 'get'"
  const ListIndexByStr := "list indices must be integers or slices, not str"
  const StrIndexByStr := "string indices must be integers, not 'str'"
  const NoneNotIterable := "'NoneType' object is not iterable"

  function NotIterable(v: JsonValue): string {
    "argument of type '" + TypeName(v) + "' is not iterable"
  }

  /** A customer row as `RETURNING` gives it back. */
  datatype Customer = Customer(customerId: string, name: string, phone: string, address: string)

  /** The statements the handler executes: the existence check, and the
      update with one `field = %s` per entry of `fields` followed by
      `WHERE customer_id = %s`, bound to `values` in placeholder order. */
  datatype Statement =
    | SelectCustomer(id: string)
    | UpdateRow(fields: seq<string>, values: seq<JsonValue>)

  /** `event.get('pathParameters', {}).get('customer_id')`, read as a string
      (missing reads as the falsy `""`); a `null` map raises instead. */
  function CustomerId(event: Event): string
    requires !event.pathParameters.Null?
  {
    match event.pathParameters
    case Missing => ""
    case Present(m) => if "customer_id" in m then m["customer_id"] else ""
  }

  predicate IdGiven(event: Event) {
    !event.pathParameters.Null? && CustomerId(event) != ""
  }

  /** `event.get('body')` is truthy. */
  predicate BodyGiven(event: Event) {
    event.body.Present? && event.body.value != ""
  }

  /** Whether `key in body` can be asked of the parsed body without a TypeError. */
  predicate Iterable(v: JsonValue) {
    v.JObj? || v.JArr? || v.JStr?
  }

  /** Python's `key in body`: a key of a dict, an element of a list, a substring of a string. */
  predicate Mentions(v: JsonValue, key: string) {
    match v
    case JObj(fields) => key in fields
    case JArr(items) => JStr(key) in items
    case JStr(s) => PyStr.Contains(s, key)
    case _ => false
  }

  /** `provided_fields`. */
  function ProvidedFields(v: JsonValue): seq<string> {
    Filter(Updatable, (k: string) => Mentions(v, k))
  }

  /** The provided fields are the updatable fields the body mentions, in the
      fixed order; a field counts even when its value is `null` or empty,
      since only membership is tested. */
  lemma ProvidedFieldsMeaning(v: JsonValue)
    ensures Subsequence(ProvidedFields(v), Updatable)
    ensures forall k :: k in ProvidedFields(v) <==> k in Updatable && Mentions(v, k)
  {
    var p := (k: string) => Mentions(v, k);
    FilterCharacterization(Updatable, p);
    FilterMembership(Updatable, p);
  }

  lemma UpdatableDistinct(k: string)
    ensures multiset(Updatable)[k] <= 1
  {
    assert Updatable == ["customer_name"] + ["customer_phone_number"] + ["customer_address"];
    assert multiset(Updatable) == multiset{"customer_name"} + multiset{"customer_phone_number"} + multiset{"customer_address"};
  }

  /** No field is set twice. */
  lemma ProvidedFieldsOnce(v: JsonValue)
    ensures forall k :: multiset(ProvidedFields(v))[k] <= 1
  {
    FilterCharacterization(Updatable, (k: string) => Mentions(v, k));
    forall k ensures multiset(ProvidedFields(v))[k] <= 1 {
      UpdatableDistinct(k);
    }
  }

  /** A field sent as `null` is still provided (and is written as NULL). */
  lemma NullValueIsProvided(fields: map<string, JsonValue>)
    requires fields == map["customer_name" := JNull]
    ensures ProvidedFields(JObj(fields)) == ["customer_name"]
  {
    var p := (k: string) => Mentions(JObj(fields), k);
    assert Updatable == ["customer_name"] + ["customer_phone_number", "customer_address"];
    assert Filter(["customer_address"], p) == [] by {
      assert !p("customer_address");
      assert ["customer_address"][1..] == [];
    }
    assert Filter(["customer_phone_number", "customer_address"], p) == [] by {
      assert !p("customer_phone_number");
      assert ["customer_phone_number", "customer_address"][1..] == ["customer_address"];
    }
  }

  /** The values bound to the UPDATE: the body's value for each provided field, then the id. */
  function UpdateValues(fields: map<string, JsonValue>, provided: seq<string>, id: string): (vals: seq<JsonValue>)
    ensures |vals| == |provided| + 1
  {
    seq(|provided|, i requires 0 <= i < |provided| => Get(fields, provided[i])) + [JStr(id)]
  }

  /** The column placeholder `i` of the UPDATE stands for: the SET columns in
      order, then `customer_id` in the WHERE clause. */
  function PlaceholderColumn(provided: seq<string>, i: nat): string {
    if i < |provided| then provided[i] else "customer_id"
  }

  /** The value a column should receive: the path's id for `customer_id`, the body's value otherwise. */
  function ValueFor(fields: map<string, JsonValue>, id: string, column: string): JsonValue {
    if column == "customer_id" then JStr(id) else Get(fields, column)
  }

  /** One placeholder per SET column plus one for the WHERE, and each bound
      to the value meant for its column. */
  lemma UpdateBinding(fields: map<string, JsonValue>, id: string)
    ensures var provided := ProvidedFields(JObj(fields));
            var vals := UpdateValues(fields, provided, id);
      && |vals| == |provided| + 1
      && forall i :: 0 <= i < |vals| ==> vals[i] == ValueFor(fields, id, PlaceholderColumn(provided, i))
  {
    var provided := ProvidedFields(JObj(fields));
    ProvidedFieldsMeaning(JObj(fields));
    forall i | 0 <= i < |provided| ensures provided[i] != "customer_id" {
      assert provided[i] in provided;
    }
  }

  /** What the validation cascade decides before the existence check. */
  datatype Checked =
    | Reject(response: Response<Customer>)
    | Proceed(id: string, body: JsonValue, fields: seq<string>)

  /** The cascade: `pathParameters` (a `null` map raises), customer id, body,
      `json.loads`, the membership test, then at least one field. `parse`
      stands for `json.loads`. */
  function Validate(event: Event, parse: string -> JsonParse): (c: Checked)
    ensures event.pathParameters.Null? ==> c == Reject(Unhandled(OtherErr(NoneHasNoGet)))
    ensures !event.pathParameters.Null? && !IdGiven(event) ==> c == Reject(BadRequest(IdRequired))
    ensures IdGiven(event) && !BodyGiven(event) ==> c == Reject(BadRequest(BodyRequired))
    ensures IdGiven(event) && BodyGiven(event) && parse(event.body.value).Malformed? ==>
      c == Reject(Unhandled(ValueErr(parse(event.body.value).message)))
    ensures IdGiven(event) && BodyGiven(event) && parse(event.body.value).Parsed? ==>
      var v := parse(event.body.value).value;
      && (!Iterable(v) ==> c == Reject(Unhandled(OtherErr(NotIterable(v)))))
      && (Iterable(v) && ProvidedFields(v) == [] ==> c == Reject(BadRequest(NoFields)))
      && (Iterable(v) && ProvidedFields(v) != [] ==> c == Proceed(CustomerId(event), v, ProvidedFields(v)))
    ensures c.Reject? ==> c.response.status in {400, 500}
  {
    if event.pathParameters.Null? then Reject(Unhandled(OtherErr(NoneHasNoGet)))
    else if CustomerId(event) == "" then Reject(BadRequest(IdRequired))
    else if !BodyGiven(event) then Reject(BadRequest(BodyRequired))
    else match parse(event.body.value)
      case Malformed(msg) => Reject(Unhandled(ValueErr(msg)))
      case Parsed(v) =>
        if !Iterable(v) then Reject(Unhandled(OtherErr(NotIterable(v))))
        else if ProvidedFields(v) == [] then Reject(BadRequest(NoFields))
        else Proceed(CustomerId(event), v, ProvidedFields(v))
  }

  /** From the existence check on: 404 when no row is found, otherwise the
      UPDATE, the commit and the close. */
  function Apply(id: string, body: JsonValue, fields: seq<string>,
                 found: DbReply<bool>, updated: DbReply<Option<Customer>>, commit: DbReply<()>)
    : (o: Outcome<Customer, Statement>)
    requires Iterable(body)
    ensures |o.trace| > 0 && o.trace[0] == Open
    ensures o.response.status == 404 ==>
      && o.response.body == Failure("Not Found", "Customer not found")
      && Statements(o.trace) == [SelectCustomer(id)]
    ensures !(found.Fetched? && found.value) ==> Statements(o.trace) == [SelectCustomer(id)]
    ensures o.response.status == 200 ==>
      && body.JObj?
      && Statements(o.trace) == [SelectCustomer(id), UpdateRow(fields, UpdateValues(body.fields, fields, id))]
      && Commit in o.trace && Released(o.trace)
      && updated.Fetched? && updated.value.Some?
      && o.response.body == Success(updated.value.value)
    ensures o.response.status in {200, 404, 500}
    ensures found.Raised? ==> o.response == Unhandled(found.error)
    ensures found == Fetched(false) ==> o.response == Response(404, Failure("Not Found", "Customer not found"))
    ensures found == Fetched(true) && body.JArr? ==> o.response == Unhandled(OtherErr(ListIndexByStr))
    ensures found == Fetched(true) && body.JStr? ==> o.response == Unhandled(OtherErr(StrIndexByStr))
    ensures found == Fetched(true) && body.JObj? ==>
      && (updated.Raised? ==> o.response == Unhandled(updated.error))
      && (updated == Fetched(None) ==> o.response == Unhandled(OtherErr(NoneNotIterable)))
      && (updated.Fetched? && updated.value.Some? && commit.Raised? ==> o.response == Unhandled(commit.error))
      && (updated.Fetched? && updated.value.Some? && commit.Fetched? ==>
            o.response == Response(200, Success(updated.value.value)))
  {
    var check := SelectCustomer(id);
    StatementsOfSessions(check, check);
    if found.Raised? then Outcome(Unhandled(found.error), [Open, Exec(check)])
    else if !found.value then Outcome(Response(404, Failure("Not Found", "Customer not found")), [Open, Exec(check)])
    else if body.JArr? then Outcome(Unhandled(OtherErr(ListIndexByStr)), [Open, Exec(check)])
    else if body.JStr? then Outcome(Unhandled(OtherErr(StrIndexByStr)), [Open, Exec(check)])
    else
      var update := UpdateRow(fields, UpdateValues(body.fields, fields, id));
      var trace := [Open, Exec(check), Exec(update)];
      StatementsOfSessions(check, update);
      if updated.Raised? then Outcome(Unhandled(updated.error), trace)
      else if updated.value.None? then Outcome(Unhandled(OtherErr(NoneNotIterable)), trace)
      else if commit.Raised? then Outcome(Unhandled(commit.error), trace)
      else
        assert trace + [Commit, Close] == [Open, Exec(check), Exec(update), Commit, Close];
        assert (trace + [Commit, Close])[0].Open?;
        Outcome(Response(200, Success(updated.value.value)), trace + [Commit, Close])
  }

  /** `handler` of the update endpoint. The database answers are given:
      `connect` to opening the connection, `found` to the existence check
      (whether a row came back), `updated` to the UPDATE (the returned row,
      if any) and `commit` to the commit. */
  function Handle(event: Event, parse: string -> JsonParse, connect: DbReply<()>,
                  found: DbReply<bool>, updated: DbReply<Option<Customer>>, commit: DbReply<()>)
    : (o: Outcome<Customer, Statement>)
    ensures connect.Raised? ==> o == Outcome(Unhandled(connect.error), [])
    ensures connect.Fetched? ==> |o.trace| > 0 && o.trace[0] == Open
    ensures connect.Fetched? && Validate(event, parse).Reject? ==>
      o == Outcome(Validate(event, parse).response, [Open])
    ensures connect.Fetched? && Validate(event, parse).Proceed? ==>
      var c := Validate(event, parse);
      o == Apply(c.id, c.body, c.fields, found, updated, commit)
  {
    if connect.Raised? then Outcome(Unhandled(connect.error), [])
    else match Validate(event, parse)
      case Reject(r) => Outcome(r, [Open])
      case Proceed(id, body, fields) => Apply(id, body, fields, found, updated, commit)
  }

  /** A 404 means the existence check was the only statement: no UPDATE ran. */
  lemma NotFoundNoUpdate(event: Event, parse: string -> JsonParse, connect: DbReply<()>,
                         found: DbReply<bool>, updated: DbReply<Option<Customer>>, commit: DbReply<()>)
    requires Handle(event, parse, connect, found, updated, commit).response.status == 404
    ensures var o := Handle(event, parse, connect, found, updated, commit);
      && Statements(o.trace) == [SelectCustomer(CustomerId(event))]
      && forall i :: 0 <= i < |Statements(o.trace)| ==> !Statements(o.trace)[i].UpdateRow?
  {
    var c := Validate(event, parse);
  }

  /** A successful update set exactly the provided fields, at least one, each
      bound to its body value, with the customer id last. */
  lemma SuccessfulUpdate(event: Event, parse: string -> JsonParse, connect: DbReply<()>,
                         found: DbReply<bool>, updated: DbReply<Option<Customer>>, commit: DbReply<()>)
    requires Handle(event, parse, connect, found, updated, commit).response.status == 200
    ensures var o := Handle(event, parse, connect, found, updated, commit);
            var c := Validate(event, parse);
      && c.Proceed? && c.body.JObj?
      && c.fields == ProvidedFields(c.body) != []
      && Statements(o.trace) == [SelectCustomer(CustomerId(event)), UpdateRow(c.fields, UpdateValues(c.body.fields, c.fields, CustomerId(event)))]
      && Released(o.trace)
  {
    var c := Validate(event, parse);
  }

  // ---------------------------------------------------------------------------
  // Connection release.

  /** As written, the early returns leave the connection open: a request
      without a customer id is answered 400 with the connection never closed. */
  lemma MissingIdLeavesConnectionOpen(parse: string -> JsonParse, found: DbReply<bool>,
                                      updated: DbReply<Option<Customer>>, commit: DbReply<()>)
    ensures var o := Handle(Event(Missing, Missing, Missing), parse, Fetched(()), found, updated, commit);
      o.response == BadRequest(IdRequired) && o.trace == [Open] && !Released(o.trace)
  {
    var o := Handle(Event(Missing, Missing, Missing), parse, Fetched(()), found, updated, commit);
    assert o.trace[0].Open?;
  }

  /** The handler with the connection closed on every exit path: the same
      responses and statements, and a trace that always ends closed. */
  function HandleReleasing(event: Event, parse: string -> JsonParse, connect: DbReply<()>,
                           found: DbReply<bool>, updated: DbReply<Option<Customer>>, commit: DbReply<()>)
    : (o: Outcome<Customer, Statement>)
    ensures Released(o.trace)
    ensures o.response == Handle(event, parse, connect, found, updated, commit).response
    ensures Statements(o.trace) == Statements(Handle(event, parse, connect, found, updated, commit).trace)
    ensures connect.Fetched? && Validate(event, parse).Reject? ==> o.trace == [Open, Close]
  {
    var o := Handle(event, parse, connect, found, updated, commit);
    ReleaseOpenSessions(SelectCustomer(""));
    Outcome(o.response, Release(o.trace))
  }
}

=== FILE: distance.dfy ===
/** The browse endpoint's distance post-filter (`apply_distance_filter`).
    The great-circle distance is a parameter `dist(lat1, lon1, lat2, lon2)`:
    the filter only compares its value with `maxDistance`. */
module Distance {
  import opened Opt
  import opened Filters
  import Seqs

  /** One row of the browse query's result, by column. Nullable columns are `Option`s. */
  datatype Row = Row(
    restaurantId: string,
    branchId: string,
    name: string,
    cuisine: string,
    rating: Option<real>,
    mainImageUrl: string,
    logoUrl: string,
    longitude: Option<real>,
    latitude: Option<real>,
    description: string,
    live: bool,
    minPrice: Option<real>,
    maxPrice: Option<real>,
    bagTypes: Option<seq<string>>)

  /** Python truthiness of an optional number: present and non-zero. */
  predicate NonZero(x: Option<real>) {
    x.Some? && x.value != 0.0
  }

  /** `float(v) if v else 0.0`: a missing or zero column reads as `0.0`. */
  function OrZero(x: Option<real>): (r: real)
    ensures x.None? ==> r == 0.0
    ensures x.Some? ==> r == x.value
  {
    if NonZero(x) then x.value else 0.0
  }

  /** The filter runs only when `maxDistance`, `latitude` and `longitude` are all truthy. */
  predicate GeoActive(f: FilterSet) {
    NonZero(f.maxDistance) && NonZero(f.latitude) && NonZero(f.longitude)
  }

  /** The row's distance from the point, its own coordinates defaulting to `0.0`. */
  function DistanceTo(lat: real, lon: real, row: Row, dist: (real, real, real, real) -> real): real {
    dist(lat, lon, OrZero(row.latitude), OrZero(row.longitude))
  }

  /** The keep test: within `maxDistance`, bound included. */
  function Keep(lat: real, lon: real, maxDistance: real, dist: (real, real, real, real) -> real): Row -> bool {
    row => DistanceTo(lat, lon, row, dist) <= maxDistance
  }

  predicate Within(f: FilterSet, row: Row, dist: (real, real, real, real) -> real)
    requires GeoActive(f)
  {
    DistanceTo(f.latitude.value, f.longitude.value, row, dist) <= f.maxDistance.value
  }

  /** What the post-filter returns: the input itself when it is switched off;
      otherwise an order-preserving subsequence of the input holding each row
      within range exactly as often as the input does and no row out of range. */
  function DistanceFilter(rows: seq<Row>, f: FilterSet, dist: (real, real, real, real) -> real): (r: seq<Row>)
    ensures !GeoActive(f) ==> r == rows
    ensures |r| <= |rows|
    ensures GeoActive(f) ==> Seqs.Subsequence(r, rows)
    ensures GeoActive(f) ==> forall x :: x in r <==> x in rows && Within(f, x, dist)
    ensures GeoActive(f) ==> forall x :: multiset(r)[x] == (if Within(f, x, dist) then multiset(rows)[x] else 0)
  {
    if !GeoActive(f) then rows
    else
      var p := Keep(f.latitude.value, f.longitude.value, f.maxDistance.value, dist);
      Seqs.FilterCharacterization(rows, p);
      Seqs.FilterMembership(rows, p);
      Seqs.Filter(rows, p)
  }

  /** `apply_distance_filter`: one pass over the rows, appending each row in range. */
  method ApplyDistanceFilter(rows: seq<Row>, f: FilterSet, dist: (real, real, real, real) -> real)
    returns (kept: seq<Row>)
    ensures kept == DistanceFilter(rows, f, dist)
  {
    if !GeoActive(f) {
      return rows;
    }
    var p := Keep(f.latitude.value, f.longitude.value, f.maxDistance.value, dist);
    kept := [];
    var i := 0;
    while i < |rows|
      invariant 0 <= i <= |rows|
      invariant kept == Seqs.Filter(rows[..i], p)
    {
      var row := rows[i];
      var d := dist(f.latitude.value, f.longitude.value, OrZero(row.latitude), OrZero(row.longitude));
      Seqs.FilterSnoc(rows[..i], row, p);
      assert rows[..i + 1] == rows[..i] + [row];
      if d <= f.maxDistance.value {
        kept := kept + [row];
      }
      i := i + 1;
    }
    assert rows[..i] == rows;
  }

  /** A latitude of `0.0` (the equator) switches the filter off, so every row passes. */
  lemma ZeroLatitudeKeepsAll(rows: seq<Row>, f: FilterSet, dist: (real, real, real, real) -> real)
    requires f.latitude == Some(0.0)
    ensures DistanceFilter(rows, f, dist) == rows
  {
  }

  /** A row without coordinates is measured from `(0.0, 0.0)`. */
  lemma MissingCoordinatesAtOrigin(rows: seq<Row>, f: FilterSet, dist: (real, real, real, real) -> real, row: Row)
    requires GeoActive(f) && row in rows && row.latitude.None? && row.longitude.None?
    ensures row in DistanceFilter(rows, f, dist)
        <==> dist(f.latitude.value, f.longitude.value, 0.0, 0.0) <= f.maxDistance.value
  {
  }
}

=== FILE: filters.dfy ===
/** The browse endpoint's filter parser (`parse_query_parameters`): a
    string-to-string parameter map becomes a FilterSet whose every field is
    optional. Numeric parsing is lenient (a value that does not parse is
    dropped), list fields accept `[a,b]` and `a,b`, and price bounds are put
    in order. */
module Filters {
  import opened Opt
  import opened PyStr

  /** The parsed browse filters. A field is `None` when its parameter was
      absent, empty or (for numbers) unparsable. */
  datatype FilterSet = FilterSet(
    sort: Option<string>,
    timeStart: Option<string>,
    timeEnd: Option<string>,
    minPrice: Option<real>,
    maxPrice: Option<real>,
    cuisines: Option<seq<string>>,
    bagTypes: Option<seq<string>>,
    maxDistance: Option<real>,
    latitude: Option<real>,
    longitude: Option<real>)

  const Unconstrained := FilterSet(None, None, None, None, None, None, None, None, None, None)

  /** `query_params.get(key)` is truthy: the key is present with a non-empty value. */
  predicate Given(params: map<string, string>, key: string) {
    key in params && params[key] != ""
  }

  /** A text parameter, kept as given. */
  function Text(params: map<string, string>, key: string): (r: Option<string>)
    ensures r.None? <==> !Given(params, key)
    ensures r.Some? ==> r.value == params[key] && r.value != ""
  {
    if Given(params, key) then Some(params[key]) else None
  }

  /** A numeric parameter: `float(value)` when given, dropped when `num` (the
      `float()` conversion) raises. */
  function Number(params: map<string, string>, key: string, num: string -> Option<real>): (r: Option<real>)
    ensures r.Some? <==> Given(params, key) && num(params[key]).Some?
    ensures r.Some? ==> r == num(params[key])
  {
    if Given(params, key) then num(params[key]) else None
  }

  /** The string is wrapped in one pair of square brackets. */
  predicate Bracketed(s: string) {
    |s| > 0 && s[0] == '[' && s[|s| - 1] == ']'
  }

  /** Removes one enclosing pair of square brackets, if there is one. */
  function Unbracket(s: string): (r: string)
    ensures Bracketed(s) ==> "[" + r + "]" == s
    ensures !Bracketed(s) ==> r == s
  {
    if Bracketed(s) then s[1..|s| - 1] else s
  }

  /** `[x.strip() for x in xs]`. */
  function StripAll(xs: seq<string>): (r: seq<string>)
    ensures |r| == |xs|
    ensures forall i :: 0 <= i < |xs| ==> r[i] == Strip(xs[i])
    decreases |xs|
  {
    if |xs| == 0 then [] else [Strip(xs[0])] + StripAll(xs[1..])
  }

  /** A list parameter: brackets stripped when both are present, split at
      every comma, each element stripped of surrounding whitespace. */
  function ParseList(s: string): (r: seq<string>)
    ensures |r| == Count(Unbracket(s), ',') + 1
  {
    StripAll(Split(Unbracket(s), ','))
  }

  /** Every element of a parsed list is stripped and free of commas. */
  lemma ParsedElementsClean(s: string)
    ensures forall i :: 0 <= i < |ParseList(s)| ==>
      Strip(ParseList(s)[i]) == ParseList(s)[i] && ',' !in ParseList(s)[i]
  {
    var pieces := Split(Unbracket(s), ',');
    forall i | 0 <= i < |pieces|
      ensures Strip(ParseList(s)[i]) == ParseList(s)[i] && ',' !in ParseList(s)[i]
    {
      StripIdempotent(pieces[i]);
      StripSubstring(pieces[i], ',');
    }
  }

  /** Stripping keeps only characters of the input. */
  lemma StripSubstring(s: string, c: char)
    requires c !in s
    ensures c !in Strip(s)
  {
    var a := s[LeadingSpaces(s)..];
    assert forall k :: 0 <= k < |a| ==> a[k] in s;
  }

  /** The bracketed and the bare encodings of a list parse alike. */
  lemma BracketedMatchesBare(s: string)
    requires !Bracketed(s)
    ensures ParseList("[" + s + "]") == ParseList(s)
  {
    var b := "[" + s + "]";
    assert Bracketed(b);
    assert Unbracket(b) == s;
  }

  /** Parsing a bare list that was written as `parts` joined by commas gives
      the stripped parts. */
  lemma ParseJoined(parts: seq<string>, s: string)
    requires |parts| > 0 && forall i :: 0 <= i < |parts| ==> ',' !in parts[i]
    requires s == Join(parts, ",") && !Bracketed(s)
    ensures |ParseList(s)| == |parts|
    ensures forall i :: 0 <= i < |parts| ==> ParseList(s)[i] == Strip(parts[i])
  {
    SplitJoin(parts, ',');
  }

  /** Neither starting nor ending with whitespace, and holding no comma: an
      element that a list parameter reproduces exactly. */
  predicate Clean(s: string) {
    ',' !in s && (|s| == 0 || (!IsSpace(s[0]) && !IsSpace(s[|s| - 1])))
  }

  /** Parsing clean elements joined by commas gives back the elements. */
  lemma ParseJoinedClean(parts: seq<string>, s: string)
    requires |parts| > 0 && forall i :: 0 <= i < |parts| ==> Clean(parts[i])
    requires s == Join(parts, ",") && !Bracketed(s)
    ensures ParseList(s) == parts
  {
    ParseJoined(parts, s);
    forall i | 0 <= i < |parts| ensures ParseList(s)[i] == parts[i] {
      StripClean(parts[i]);
    }
  }

  /** A list of three given elements. */
  lemma Three(r: seq<string>, a: string, b: string, c: string)
    requires |r| == 3 && r[0] == a && r[1] == b && r[2] == c
    ensures r == [a, b, c]
  {
  }

  /** Stripping a string with no whitespace at either end changes nothing. */
  lemma StripClean(s: string)
    requires |s| == 0 || (!IsSpace(s[0]) && !IsSpace(s[|s| - 1]))
    ensures Strip(s) == s
  {
    StripPadded("", s, "");
    assert "" + s + "" == s;
  }

  /** The bare encoding `"a,b,c"` gives `["a", "b", "c"]`. */
  lemma BareListExample()
    ensures ParseList("a,b,c") == ["a", "b", "c"]
  {
    assert Join(["a", "b", "c"], ",") == "a,b,c" by {
      assert Join(["c"], ",") == "c";
      assert Join(["b", "c"], ",") == "b" + "," + "c";
    }
    StripClean("a");
    StripClean("b");
    StripClean("c");
    ParseJoined(["a", "b", "c"], "a,b,c");
    Three(ParseList("a,b,c"), "a", "b", "c");
  }

  /** `"a, b,c"` is the three pieces `"a"`, `" b"`, `"c"` joined by commas. */
  lemma SpacedPieces(parts: seq<string>, s: string)
    requires parts == ["a", " b", "c"] && s == "a, b,c"
    ensures s == Join(parts, ",") && !Bracketed(s)
    ensures forall i :: 0 <= i < |parts| ==> ',' !in parts[i]
  {
    assert parts[1..] == [" b", "c"];
    assert parts[2..] == ["c"];
    assert Join(parts[2..], ",") == "c";
    assert Join(parts[1..], ",") == " b" + "," + "c";
  }

  lemma StripLeadingSpace(s: string)
    requires s == " b"
    ensures Strip(s) == "b"
  {
    StripPadded(" ", "b", "");
    assert " " + "b" + "" == s;
  }

  /** `"a, b,c"` gives `["a", "b", "c"]`: the space after the comma is stripped. */
  lemma SpacedListExample(s: string)
    requires s == "a, b,c"
    ensures ParseList(s) == ["a", "b", "c"]
  {
    var parts := ["a", " b", "c"];
    SpacedPieces(parts, s);
    ParseJoined(parts, s);
    StripClean(parts[0]);
    StripClean(parts[2]);
    StripLeadingSpace(parts[1]);
    Three(ParseList(s), "a", "b", "c");
  }

  /** The bracketed encoding with inner spaces, `"[a, b,c]"`, gives `["a", "b", "c"]`. */
  lemma BracketedListExample()
    ensures ParseList("[a, b,c]") == ["a", "b", "c"]
  {
    assert "[a, b,c]" == "[" + "a, b,c" + "]";
    BracketedMatchesBare("a, b,c");
    SpacedListExample("a, b,c");
  }

  /** `"[a, b,c]"` and `"a,b,c"` parse to the same list. */
  lemma ListEncodingsAgree()
    ensures ParseList("[a, b,c]") == ParseList("a,b,c") == ["a", "b", "c"]
  {
    BareListExample();
    BracketedListExample();
  }

  /** An empty bracket pair is a list of one empty element, not an unset field. */
  lemma EmptyBracketsGiveOneEmptyElement()
    ensures ParseList("[]") == [""]
  {
    assert Unbracket("[]") == "";
    assert Split("", ',') == [""];
    StripClean("");
  }

  /** Puts both price bounds in order when both are present: swapped exactly
      when the minimum exceeds the maximum, left alone otherwise. */
  function OrderPrices(lo: Option<real>, hi: Option<real>): (r: (Option<real>, Option<real>))
    ensures r.0.Some? && r.1.Some? ==> r.0.value <= r.1.value
    ensures r == (lo, hi) || r == (hi, lo)
    ensures r != (lo, hi) ==> lo.Some? && hi.Some? && lo.value > hi.value
  {
    if lo.Some? && hi.Some? && lo.value > hi.value then (hi, lo) else (lo, hi)
  }

  /** `parse_query_parameters`. */
  function ParseFilters(params: map<string, string>, num: string -> Option<real>): (f: FilterSet)
    ensures f.sort.None? <==> !Given(params, "sort")
    ensures f.timeStart.None? <==> !Given(params, "timeStart")
    ensures f.timeEnd.None? <==> !Given(params, "timeEnd")
    ensures f.sort == Text(params, "sort") && f.timeStart == Text(params, "timeStart") && f.timeEnd == Text(params, "timeEnd")
    ensures f.cuisines.None? <==> !Given(params, "cuisines")
    ensures f.bagTypes.None? <==> !Given(params, "bagTypes")
    ensures f.cuisines.Some? ==> f.cuisines.value == ParseList(params["cuisines"])
    ensures f.bagTypes.Some? ==> f.bagTypes.value == ParseList(params["bagTypes"])
    ensures f.maxDistance == Number(params, "maxDistance", num)
    ensures f.latitude == Number(params, "latitude", num)
    ensures f.longitude == Number(params, "longitude", num)
    ensures f.minPrice.Some? && f.maxPrice.Some? ==> f.minPrice.value <= f.maxPrice.value
    ensures (f.minPrice, f.maxPrice) == OrderPrices(Number(params, "minPrice", num), Number(params, "maxPrice", num))
  {
    var prices := OrderPrices(Number(params, "minPrice", num), Number(params, "maxPrice", num));
    FilterSet(
      sort := Text(params, "sort"),
      timeStart := Text(params, "timeStart"),
      timeEnd := Text(params, "timeEnd"),
      minPrice := prices.0,
      maxPrice := prices.1,
      cuisines := if Given(params, "cuisines") then Some(ParseList(params["cuisines"])) else None,
      bagTypes := if Given(params, "bagTypes") then Some(ParseList(params["bagTypes"])) else None,
      maxDistance := Number(params, "maxDistance", num),
      latitude := Number(params, "latitude", num),
      longitude := Number(params, "longitude", num))
  }

  /** No parameters, no constraints. */
  lemma EmptyParamsUnconstrained(num: string -> Option<real>)
    ensures ParseFilters(map[], num) == Unconstrained
  {
  }

  /** `"Italian,Thai"` gives `["Italian", "Thai"]`. */
  lemma ItalianThaiBare(s: string)
    requires s == "Italian,Thai"
    ensures ParseList(s) == ["Italian", "Thai"]
  {
    JoinTwo("Italian", "Thai", s);
    var parts := ["Italian", "Thai"];
    assert Clean(parts[0]) && Clean(parts[1]);
    ParseJoinedClean(parts, s);
  }

  lemma JoinTwo(a: string, b: string, s: string)
    requires s == a + "," + b
    ensures Join([a, b], ",") == s
  {
    assert [a, b][1..] == [b];
  }

  /** `"[Italian,Thai]"` gives `["Italian", "Thai"]`. */
  lemma ItalianThai()
    ensures ParseList("[Italian,Thai]") == ["Italian", "Thai"]
  {
    assert "[Italian,Thai]" == "[" + "Italian,Thai" + "]";
    BracketedMatchesBare("Italian,Thai");
    ItalianThaiBare("Italian,Thai");
  }

  /** The scenario `{cuisines: "[Italian,Thai]", minPrice: "5", maxPrice: "2"}`
      with a `float()` that reads "5" and "2": cuisines in order, prices swapped. */
  lemma SwapScenario(num: string -> Option<real>, params: map<string, string>)
    requires num("5") == Some(5.0) && num("2") == Some(2.0)
    requires params == map["cuisines" := "[Italian,Thai]", "minPrice" := "5", "maxPrice" := "2"]
    ensures ParseFilters(params, num).cuisines == Some(["Italian", "Thai"])
    ensures ParseFilters(params, num).minPrice == Some(2.0)
    ensures ParseFilters(params, num).maxPrice == Some(5.0)
  {
    var f := ParseFilters(params, num);
    assert Given(params, "cuisines") && params["cuisines"] == "[Italian,Thai]";
    assert f.cuisines == Some(ParseList("[Italian,Thai]"));
    ItalianThai();
    assert Given(params, "minPrice") && params["minPrice"] == "5";
    assert Given(params, "maxPrice") && params["maxPrice"] == "2";
    assert (f.minPrice, f.maxPrice) == OrderPrices(Some(5.0), Some(2.0));
  }
}

=== FILE: http.dfy ===
/** What all handlers share: the incoming event, the exceptions that escape
    into their `except` blocks, the response envelope, and the trace of what
    each handler did with its database connection. */
module Http {
  import opened Opt

  /** The parts of the API Gateway event the handlers read. */
  datatype Event = Event(
    pathParameters: Nullable<map<string, string>>,
    queryStringParameters: Nullable<map<string, string>>,
    body: Nullable<string>)

  /** An exception that reaches a handler's `except` clauses: a `pg8000.Error`,
      a `ValueError` (a bad `DB_PORT`, a `JSONDecodeError`), or any other. */
  datatype Exc = PgError(msg: string) | ValueErr(msg: string) | OtherErr(msg: string)

  datatype Body<+T> = Failure(error: string, message: string) | Success(payload: T)

  /** The `{statusCode, body}` a handler returns (headers are not modelled). */
  datatype Response<+T> = Response(status: int, body: Body<T>)

  function BadRequest<T>(message: string): Response<T> {
    Response(400, Failure("Bad Request", message))
  }

  /** The two generic `except` clauses every handler has: a `pg8000.Error` is
      a database error, anything else an internal error, both 500. */
  function Unhandled<T>(e: Exc): (r: Response<T>)
    ensures r.status == 500
    ensures r.body.Failure? && r.body.message == e.msg
    ensures r.body.error == (if e.PgError? then "Database error occurred" else "Internal server error")
  {
    match e
    case PgError(m) => Response(500, Failure("Database error occurred", m))
    case _ => Response(500, Failure("Internal server error", e.msg))
  }

  /** What the database answered to a statement: a fetched result, or the
      exception raised while executing or fetching. */
  datatype DbReply<+T> = Fetched(value: T) | Raised(error: Exc)

  /** One thing a handler does with its connection, in order. */
  datatype DbEvent<+S> = Open | Exec(statement: S) | Commit | Close

  /** A handler's response together with its connection trace. */
  datatype Outcome<+T, +S> = Outcome(response: Response<T>, trace: seq<DbEvent<S>>)

  predicate Opened<S>(trace: seq<DbEvent<S>>) {
    exists i :: 0 <= i < |trace| && trace[i].Open?
  }

  /** A connection that was opened has been closed by the end of the trace. */
  predicate Released<S>(trace: seq<DbEvent<S>>) {
    Opened(trace) ==> |trace| > 0 && trace[|trace| - 1].Close?
  }

  /** The trace of a handler whose connection is closed on every exit path
      (a `finally: connection.close()`): a missing final close is added. */
  function Release<S>(trace: seq<DbEvent<S>>): (r: seq<DbEvent<S>>)
    ensures Released(r)
    ensures trace <= r && |r| <= |trace| + 1
    ensures |r| > |trace| ==> r[|trace|].Close?
    ensures Released(trace) ==> r == trace
    ensures Statements(r) == Statements(trace)
  {
    if Opened(trace) && !(trace[|trace| - 1].Close?) then
      StatementsSnoc(trace, Close);
      trace + [Close]
    else trace
  }

  /** Executed statements of a trace, in order. */
  function Statements<S>(trace: seq<DbEvent<S>>): (r: seq<S>)
    ensures |r| <= |trace|
  {
    if |trace| == 0 then []
    else
      var last := trace[|trace| - 1];
      var init := trace[..|trace| - 1];
      assert trace == init + [last];
      Statements(init) + (if last.Exec? then [last.statement] else [])
  }

  /** Statements of a trace extended by one event. */
  lemma StatementsSnoc<S>(trace: seq<DbEvent<S>>, e: DbEvent<S>)
    ensures Statements(trace + [e]) == Statements(trace) + (if e.Exec? then [e.statement] else [])
  {
    assert (trace + [e])[..|trace|] == trace;
  }

  /** Statements of the traces the handlers produce. */
  lemma StatementsOfSessions<S>(a: S, b: S)
    ensures Statements<S>([Open]) == []
    ensures Statements([Open, Exec(a)]) == [a]
    ensures Statements([Open, Exec(a), Close]) == [a]
    ensures Statements([Open, Exec(a), Commit, Close]) == [a]
    ensures Statements([Open, Exec(a), Exec(b)]) == [a, b]
    ensures Statements([Open, Exec(a), Exec(b), Commit, Close]) == [a, b]
  {
    var t0: seq<DbEvent<S>> := [];
    StatementsSnoc(t0, Open);
    assert t0 + [Open] == [Open];
    StatementsSnoc([Open], Exec(a));
    assert [Open] + [Exec(a)] == [Open, Exec(a)];
    StatementsSnoc([Open, Exec(a)], Close);
    assert [Open, Exec(a)] + [Close] == [Open, Exec(a), Close];
    StatementsSnoc([Open, Exec(a)], Commit);
    assert [Open, Exec(a)] + [Commit] == [Open, Exec(a), Commit];
    StatementsSnoc([Open, Exec(a), Commit], Close);
    assert [Open, Exec(a), Commit] + [Close] == [Open, Exec(a), Commit, Close];
    StatementsSnoc([Open, Exec(a)], Exec(b));
    assert [Open, Exec(a)] + [Exec(b)] == [Open, Exec(a), Exec(b)];
    StatementsSnoc([Open, Exec(a), Exec(b)], Commit);
    assert [Open, Exec(a), Exec(b)] + [Commit] == [Open, Exec(a), Exec(b), Commit];
    StatementsSnoc([Open, Exec(a), Exec(b), Commit], Close);
    assert [Open, Exec(a), Exec(b), Commit] + [Close] == [Open, Exec(a), Exec(b), Commit, Close];
  }

  /** Closing the early exits the handlers leave open: a connection that was
      only opened, and one that ran a single statement. */
  lemma ReleaseOpenSessions<S>(a: S)
    ensures Release<S>([Open]) == [Open, Close]
    ensures Release([Open, Exec(a)]) == [Open, Exec(a), Close]
  {
    var bare: seq<DbEvent<S>> := [Open];
    assert bare[0].Open?;
    assert [Open, Exec(a)][0].Open?;
    assert bare + [Close] == [Open, Close];
    assert [Open, Exec(a)] + [Close] == [Open, Exec(a), Close];
  }
}

=== FILE: json.dfy ===
/** The values `json.loads` produces, with Python's truthiness on them. */
module Json {

  datatype JsonValue =
    | JNull
    | JBool(b: bool)
    | JInt(i: int)
    | JFloat(x: real)
    | JStr(s: string)
    | JArr(items: seq<JsonValue>)
    | JObj(fields: map<string, JsonValue>)

  /** Outcome of `json.loads(text)`: a value, or the `JSONDecodeError` message. */
  datatype JsonParse = Parsed(value: JsonValue) | Malformed(message: string)

  /** Python's `bool(v)`: `None`, `False`, zero, and empty strings,
      lists and dicts are falsy; everything else is truthy. */
  predicate Truthy(v: JsonValue) {
    match v
    case JNull => false
    case JBool(b) => b
    case JInt(i) => i != 0
    case JFloat(x) => x != 0.0
    case JStr(s) => |s| > 0
    case JArr(items) => |items| > 0
    case JObj(fields) => |fields| > 0
  }

  /** `d.get(key)` on a dict: `None` for a missing key. */
  function Get(fields: map<string, JsonValue>, key: string): JsonValue {
    if key in fields then fields[key] else JNull
  }

  /** Python's `type(v).__name__`. */
  function TypeName(v: JsonValue): string {
    match v
    case JNull => "NoneType"
    case JBool(_) => "bool"
    case JInt(_) => "int"
    case JFloat(_) => "float"
    case JStr(_) => "str"
    case JArr(_) => "list"
    case JObj(_) => "dict"
  }
}

=== FILE: opt.dfy ===
/** Optional values: `Option` for a Python value that may be `None`, and
    `Nullable` for a key of a JSON event that may be missing, present with
    `null`, or present with a value (the two absences differ for
    `event.get(key, default)`). */
module Opt {

  datatype Option<+T> = None | Some(value: T) {

    /** The value, or `default` when there is none. */
    function GetOr(default: T): T {
      match this
      case Some(v) => v
      case None => default
    }
  }

  datatype Nullable<+T> = Missing | Null | Present(value: T) {

    /** Python's `event.get(key) or default` for a key whose present value is
        never falsy in a way that matters: missing and `null` both give the
        default. */
    function OrElse(default: T): T {
      match this
      case Present(v) => v
      case _ => default
    }
  }
}

=== FILE: pystr.dfy ===
/** The Python `str` operations the handlers rely on: `strip()`, `split(sep)`,
    `sep.join(parts)`, `lower()` and the `in` substring test. */
module PyStr {

  /** Python's `str.isspace()` for one character: bidirectional classes WS, B
      and S together with the Unicode space separators. */
  predicate IsSpace(c: char) {
    || '\t' <= c <= '\r'              // \t \n \x0b \x0c \r
    || '\U{1C}' <= c <= ' '           // \x1c..\x1f and the space
    || c == '\U{85}' || c == '\U{A0}' || c == '\U{1680}'
    || '\U{2000}' <= c <= '\U{200A}'
    || c == '\U{2028}' || c == '\U{2029}' || c == '\U{202F}' || c == '\U{205F}' || c == '\U{3000}'
  }

  /** Number of whitespace characters at the start of `s`. */
  function LeadingSpaces(s: string): (n: nat)
    ensures n <= |s|
    ensures forall k :: 0 <= k < n ==> IsSpace(s[k])
    ensures n < |s| ==> !IsSpace(s[n])
    decreases |s|
  {
    if |s| > 0 && IsSpace(s[0]) then 1 + LeadingSpaces(s[1..]) else 0
  }

  /** Number of whitespace characters at the end of `s`. */
  function TrailingSpaces(s: string): (n: nat)
    ensures n <= |s|
    ensures forall k :: |s| - n <= k < |s| ==> IsSpace(s[k])
    ensures n < |s| ==> !IsSpace(s[|s| - 1 - n])
    decreases |s|
  {
    if |s| > 0 && IsSpace(s[|s| - 1]) then 1 + TrailingSpaces(s[..|s| - 1]) else 0
  }

  /** `s.strip()`: drops the leading whitespace, then the trailing whitespace of what is left. */
  function Strip(s: string): (r: string)
    ensures |r| <= |s|
    ensures |r| == 0 || (!IsSpace(r[0]) && !IsSpace(r[|r| - 1]))
  {
    var a := s[LeadingSpaces(s)..];
    a[..|a| - TrailingSpaces(a)]
  }

  predicate AllSpace(s: string) {
    forall k :: 0 <= k < |s| ==> IsSpace(s[k])
  }

  /** Strip removes exactly the surrounding whitespace: padding `core` (which
      neither starts nor ends with whitespace) on either side with whitespace
      and stripping gives back `core`. */
  lemma StripPadded(pre: string, core: string, post: string)
    requires AllSpace(pre) && AllSpace(post)
    requires |core| == 0 || (!IsSpace(core[0]) && !IsSpace(core[|core| - 1]))
    ensures Strip(pre + core + post) == core
  {
    var s := pre + core + post;
    if |core| > 0 {
      assert !IsSpace(s[|pre|]);
      assert forall k :: 0 <= k < |pre| ==> s[k] == pre[k];
      assert LeadingSpaces(s) == |pre|;
      var a := s[|pre|..];
      assert a == core + post;
      assert forall k :: |core| <= k < |a| ==> a[k] == post[k - |core|];
      assert !IsSpace(a[|core| - 1]);
      assert TrailingSpaces(a) == |post|;
      assert a[..|core|] == core;
    } else {
      assert AllSpace(s) by {
        forall k | 0 <= k < |s| ensures IsSpace(s[k]) {
          if k < |pre| { assert s[k] == pre[k]; } else { assert s[k] == post[k - |pre|]; }
        }
      }
      assert LeadingSpaces(s) == |s|;
    }
  }

  /** Stripping twice is stripping once. */
  lemma StripIdempotent(s: string)
    ensures Strip(Strip(s)) == Strip(s)
  {
    var r := Strip(s);
    assert r == [] + r + [];
    StripPadded([], r, []);
  }

  /** Number of occurrences of `c` in `s`. */
  function Count(s: string, c: char): nat
    decreases |s|
  {
    if |s| == 0 then 0 else (if s[0] == c then 1 else 0) + Count(s[1..], c)
  }

  /** `s.split(c)` for a one-character separator: cuts at every occurrence, so
      there is always one more piece than separators, and no piece holds a
      separator. */
  function Split(s: string, c: char): (r: seq<string>)
    ensures |r| == Count(s, c) + 1
    ensures forall i :: 0 <= i < |r| ==> c !in r[i]
    decreases |s|
  {
    if |s| == 0 then [""]
    else if s[0] == c then [""] + Split(s[1..], c)
    else
      var rest := Split(s[1..], c);
      [[s[0]] + rest[0]] + rest[1..]
  }

  /** `sep.join(parts)`. */
  function Join(parts: seq<string>, sep: string): string
    decreases |parts|
  {
    if |parts| == 0 then ""
    else if |parts| == 1 then parts[0]
    else parts[0] + sep + Join(parts[1..], sep)
  }

  /** Joining the pieces of a split with the same separator restores the input. */
  lemma {:induction false} JoinSplit(s: string, c: char)
    ensures Join(Split(s, c), [c]) == s
    decreases |s|
  {
    if |s| > 0 {
      var rest := Split(s[1..], c);
      JoinSplit(s[1..], c);
      if s[0] == c {
        assert Split(s, c) == [""] + rest;
        if |rest| == 1 {
          assert Join(Split(s, c), [c]) == "" + [c] + rest[0];
        } else {
          assert ([""] + rest)[1..] == rest;
        }
        assert s == [c] + s[1..];
      } else {
        var r := Split(s, c);
        assert r == [[s[0]] + rest[0]] + rest[1..];
        if |rest| == 1 {
          assert Join(r, [c]) == [s[0]] + rest[0];
        } else {
          assert r[1..] == rest[1..];
          assert Join(rest, [c]) == rest[0] + [c] + Join(rest[1..], [c]);
        }
        assert s == [s[0]] + s[1..];
      }
    }
  }

  /** Splitting a join of separator-free pieces gives back the pieces. */
  lemma {:induction false} SplitJoin(parts: seq<string>, c: char)
    requires |parts| > 0
    requires forall i :: 0 <= i < |parts| ==> c !in parts[i]
    ensures Split(Join(parts, [c]), c) == parts
    decreases |parts|
  {
    if |parts| == 1 {
      SplitNoSeparator(parts[0], c);
    } else {
      SplitJoin(parts[1..], c);
      SplitPrefix(parts[0], Join(parts[1..], [c]), c);
    }
  }

  /** A string without the separator splits into itself. */
  lemma {:induction false} SplitNoSeparator(s: string, c: char)
    requires c !in s
    ensures Split(s, c) == [s]
    decreases |s|
  {
    if |s| > 0 {
      SplitNoSeparator(s[1..], c);
      assert [s[0]] + s[1..] == s;
    }
  }

  /** Splitting `w + [c] + t` where `w` has no separator puts `w` in front of the pieces of `t`. */
  lemma {:induction false} SplitPrefix(w: string, t: string, c: char)
    requires c !in w
    ensures Split(w + [c] + t, c) == [w] + Split(t, c)
    decreases |w|
  {
    var s := w + [c] + t;
    if |w| == 0 {
      assert s == [c] + t;
      assert s[1..] == t;
    } else {
      assert s[0] == w[0];
      assert s[1..] == w[1..] + [c] + t;
      SplitPrefix(w[1..], t, c);
      assert [w[0]] + w[1..] == w;
    }
  }

  /** Python's `str.lower()` on one character, for `A`..`Z` and KELVIN SIGN
      (U+212A, lowered to `k`); every other character is returned unchanged.
      The only other character whose lower case holds an ASCII letter is
      LATIN CAPITAL LETTER I WITH DOT ABOVE (U+0130), which lowers to the two
      characters `i` U+0307; it is left unchanged here. */
  function LowerChar(c: char): (r: char)
  {
    if 'A' <= c <= 'Z' then (c as int + 32) as char
    else if c == '\U{212A}' then 'k'
    else c
  }

  /** `s.lower()`, character by character. */
  function Lower(s: string): (r: string)
    ensures |r| == |s|
    ensures forall i :: 0 <= i < |s| ==> r[i] == LowerChar(s[i])
  {
    seq(|s|, i requires 0 <= i < |s| => LowerChar(s[i]))
  }

  /** `sub` occurs in `s` starting at index `i`. */
  predicate OccursAt(s: string, sub: string, i: int) {
    0 <= i <= |s| - |sub| && s[i..i + |sub|] == sub
  }

  /** `sub in s`: `sub` occurs in `s` as a contiguous run. */
  function Contains(s: string, sub: string): bool
    decreases |s|
  {
    |sub| <= |s| && (s[..|sub|] == sub || Contains(s[1..], sub))
  }

  /** The search agrees with the definition of a substring occurrence, in both directions. */
  lemma {:induction false} ContainsIff(s: string, sub: string)
    ensures Contains(s, sub) <==> exists i :: OccursAt(s, sub, i)
    decreases |s|
  {
    if |sub| <= |s| {
      if s[..|sub|] == sub {
        assert OccursAt(s, sub, 0);
      } else {
        ContainsIff(s[1..], sub);
        assert !OccursAt(s, sub, 0);
        forall j | OccursAt(s[1..], sub, j) ensures OccursAt(s, sub, j + 1) {
          SliceOfTail(s, j + 1, |sub|);
        }
        forall i | OccursAt(s, sub, i) && i > 0 ensures OccursAt(s[1..], sub, i - 1) {
          SliceOfTail(s, i, |sub|);
        }
      }
    }
  }

  /** A slice of `s` starting past its head is the shifted slice of its tail. */
  lemma SliceOfTail(s: string, i: int, n: nat)
    requires 1 <= i && i + n <= |s|
    ensures s[i..i + n] == s[1..][i - 1..i - 1 + n]
  {
    var a := s[i..i + n];
    var b := s[1..][i - 1..i - 1 + n];
    assert |a| == |b|;
    forall k | 0 <= k < n ensures a[k] == b[k] {
      assert a[k] == s[i + k];
      assert b[k] == s[1..][i - 1 + k] == s[i + k];
    }
  }

  /** A string contains every string it is built around. */
  lemma ContainsMiddle(a: string, sub: string, b: string)
    ensures Contains(a + sub + b, sub)
  {
    var s := a + sub + b;
    assert s[|a|..|a| + |sub|] == sub;
    assert OccursAt(s, sub, |a|);
    ContainsIff(s, sub);
  }
}

=== FILE: query.dfy ===
/** The browse endpoint's query builder (`build_restaurant_query` and
    `build_order_by_clause`). The SQL text is not modelled: the query is the
    list of WHERE conditions, each carrying the 1-based `$n` placeholder
    indices it uses, the positional parameter list, and the ORDER BY clause.
    A reference predicate `Admits` says which restaurant/inventory pairs the
    filters let through, and `QueryMeaning` proves that the built conditions,
    read against the parameter list, say exactly that. */
module Query {
  import opened Opt
  import opened Filters

  datatype ListColumn = Cuisine | BagType
  datatype Bound = AtLeast | AtMost

  /** One WHERE condition with the placeholder indices it refers to:
      `r.liveflag = true`; `r.cuisinetype IN ($a, ...)` or
      `i.bag_type IN ($a, ...)`; `i.sale_price >= $n` or `<= $n`;
      `$n::time BETWEEN i.order_start_time::time AND i.order_end_time::time`. */
  datatype Condition =
    | LiveOnly
    | InList(column: ListColumn, slots: seq<int>)
    | PriceBound(bound: Bound, slot: int)
    | TimeWithin(slot: int)

  /** A bound parameter value. */
  datatype Param = PText(text: string) | PNum(num: real)

  datatype SortColumn = MinSalePrice | Rating | Name
  datatype Direction = Asc | Desc

  /** The single ORDER BY clause of the query. */
  datatype OrderClause = OrderBy(column: SortColumn, direction: Direction)

  datatype SqlQuery = SqlQuery(conditions: seq<Condition>, params: seq<Param>, orderBy: OrderClause)

  function SlotsOf(c: Condition): seq<int> {
    match c
    case LiveOnly => []
    case InList(_, slots) => slots
    case PriceBound(_, k) => [k]
    case TimeWithin(k) => [k]
  }

  /** The consecutive indices `from, from + 1, ..., from + n - 1`. */
  function Slots(from: int, n: nat): (r: seq<int>)
    ensures |r| == n
    ensures forall i :: 0 <= i < n ==> r[i] == from + i
  {
    seq(n, i => from + i)
  }

  /** Every placeholder index the conditions use, in the order they appear in the query text. */
  function AllSlots(cs: seq<Condition>): seq<int>
    decreases |cs|
  {
    if |cs| == 0 then [] else AllSlots(cs[..|cs| - 1]) + SlotsOf(cs[|cs| - 1])
  }

  function Texts(xs: seq<string>): (r: seq<Param>)
    ensures |r| == |xs|
    ensures forall i :: 0 <= i < |xs| ==> r[i] == PText(xs[i])
  {
    seq(|xs|, i requires 0 <= i < |xs| => PText(xs[i]))
  }

  // ---------------------------------------------------------------------------
  // The builder: conditions, parameters and the running `param_index`.

  datatype Builder = Builder(conditions: seq<Condition>, params: seq<Param>, next: int)

  const Start := Builder([LiveOnly], [], 1)

  /** An `IN` list with one placeholder per value, numbered from the running index. */
  function AddList(b: Builder, column: ListColumn, values: seq<string>): Builder {
    Builder(b.conditions + [InList(column, Slots(b.next, |values|))], b.params + Texts(values), b.next + |values|)
  }

  function AddPrice(b: Builder, bound: Bound, price: real): Builder {
    Builder(b.conditions + [PriceBound(bound, b.next)], b.params + [PNum(price)], b.next + 1)
  }

  function AddTime(b: Builder, time: string): Builder {
    Builder(b.conditions + [TimeWithin(b.next)], b.params + [PText(time)], b.next + 1)
  }

  /** `filters.get('cuisines')` is truthy. */
  predicate CuisinesGiven(f: FilterSet) {
    f.cuisines.Some? && |f.cuisines.value| > 0
  }

  predicate BagTypesGiven(f: FilterSet) {
    f.bagTypes.Some? && |f.bagTypes.value| > 0
  }

  /** `filters.get('timeStart') and filters.get('timeEnd')` is truthy. */
  predicate TimeGiven(f: FilterSet) {
    f.timeStart.Some? && f.timeStart.value != "" && f.timeEnd.Some? && f.timeEnd.value != ""
  }

  /** The builder state after each group of conditions, in source order. */
  function AfterCuisines(f: FilterSet): Builder {
    if CuisinesGiven(f) then AddList(Start, Cuisine, f.cuisines.value) else Start
  }

  function AfterMinPrice(f: FilterSet): Builder {
    if f.minPrice.Some? then AddPrice(AfterCuisines(f), AtLeast, f.minPrice.value) else AfterCuisines(f)
  }

  function AfterMaxPrice(f: FilterSet): Builder {
    if f.maxPrice.Some? then AddPrice(AfterMinPrice(f), AtMost, f.maxPrice.value) else AfterMinPrice(f)
  }

  function AfterBagTypes(f: FilterSet): Builder {
    if BagTypesGiven(f) then AddList(AfterMaxPrice(f), BagType, f.bagTypes.value) else AfterMaxPrice(f)
  }

  function AfterTimes(f: FilterSet): Builder {
    if TimeGiven(f) then AddTime(AddTime(AfterBagTypes(f), f.timeStart.value), f.timeEnd.value)
    else AfterBagTypes(f)
  }

  /** The parameters a filter set binds, listed group by group: cuisines,
      minimum price, maximum price, bag types, then start and end time. */
  function ExpectedParams(f: FilterSet): seq<Param> {
    CuisineParams(f) + MinPriceParams(f) + MaxPriceParams(f) + BagTypeParams(f) + TimeParams(f)
  }

  function CuisineParams(f: FilterSet): seq<Param> {
    if CuisinesGiven(f) then Texts(f.cuisines.value) else []
  }

  function MinPriceParams(f: FilterSet): seq<Param> {
    if f.minPrice.Some? then [PNum(f.minPrice.value)] else []
  }

  function MaxPriceParams(f: FilterSet): seq<Param> {
    if f.maxPrice.Some? then [PNum(f.maxPrice.value)] else []
  }

  function BagTypeParams(f: FilterSet): seq<Param> {
    if BagTypesGiven(f) then Texts(f.bagTypes.value) else []
  }

  function TimeParams(f: FilterSet): seq<Param> {
    if TimeGiven(f) then [PText(f.timeStart.value), PText(f.timeEnd.value)] else []
  }

  /** `build_restaurant_query`: the live-flag condition comes first; the
      placeholders used across all conditions are exactly `1..|params|`, in
      order, each once; the parameters are bound in the fixed group order;
      and the ordering is the one `sort` selects. */
  function BuildQuery(f: FilterSet): (q: SqlQuery)
    ensures Kinds(q.conditions) == ExpectedKinds(f)
    ensures AllSlots(q.conditions) == Slots(1, |q.params|)
    ensures q.params == ExpectedParams(f)
    ensures q.orderBy == OrderFor(f.sort)
  {
    BuildNumbered(f);
    BuildShape(f);
    var b := AfterTimes(f);
    SqlQuery(b.conditions, b.params, OrderFor(f.sort))
  }

  // ---------------------------------------------------------------------------
  // Placeholder discipline.

  /** The builder invariant: the conditions so far use exactly `1..|params|`
      in order, and the running index is the next free one. */
  predicate Numbered(b: Builder) {
    b.next == |b.params| + 1 && AllSlots(b.conditions) == Slots(1, |b.params|)
  }

  lemma AllSlotsSnoc(cs: seq<Condition>, c: Condition)
    ensures AllSlots(cs + [c]) == AllSlots(cs) + SlotsOf(c)
  {
    assert (cs + [c])[..|cs|] == cs;
  }

  lemma SlotsConcat(from: int, n: nat, m: nat)
    ensures Slots(from, n) + Slots(from + n, m) == Slots(from, n + m)
  {
  }

  lemma AddListNumbered(b: Builder, column: ListColumn, values: seq<string>)
    requires Numbered(b)
    ensures Numbered(AddList(b, column, values))
  {
    AllSlotsSnoc(b.conditions, InList(column, Slots(b.next, |values|)));
    SlotsConcat(1, |b.params|, |values|);
  }

  lemma AddOneNumbered(b: Builder, c: Condition, p: Param)
    requires Numbered(b) && SlotsOf(c) == [b.next]
    ensures Numbered(Builder(b.conditions + [c], b.params + [p], b.next + 1))
  {
    AllSlotsSnoc(b.conditions, c);
    SlotsConcat(1, |b.params|, 1);
  }

  lemma StartNumbered()
    ensures Numbered(Start)
  {
    assert AllSlots([LiveOnly]) == [] by { assert [LiveOnly][..0] == []; }
  }

  /** Every step keeps the numbering invariant and appends its own parameters. */
  lemma CuisinesNumbered(f: FilterSet)
    ensures Numbered(AfterCuisines(f)) && AfterCuisines(f).params == CuisineParams(f)
  {
    StartNumbered();
    if CuisinesGiven(f) { AddListNumbered(Start, Cuisine, f.cuisines.value); }
  }

  lemma MinPriceNumbered(f: FilterSet)
    ensures Numbered(AfterMinPrice(f)) && AfterMinPrice(f).params == CuisineParams(f) + MinPriceParams(f)
  {
    CuisinesNumbered(f);
    var b := AfterCuisines(f);
    if f.minPrice.Some? { AddOneNumbered(b, PriceBound(AtLeast, b.next), PNum(f.minPrice.value)); }
  }

  lemma MaxPriceNumbered(f: FilterSet)
    ensures Numbered(AfterMaxPrice(f))
    ensures AfterMaxPrice(f).params == CuisineParams(f) + MinPriceParams(f) + MaxPriceParams(f)
  {
    MinPriceNumbered(f);
    var b := AfterMinPrice(f);
    if f.maxPrice.Some? { AddOneNumbered(b, PriceBound(AtMost, b.next), PNum(f.maxPrice.value)); }
  }

  lemma BagTypesNumbered(f: FilterSet)
    ensures Numbered(AfterBagTypes(f))
    ensures AfterBagTypes(f).params == CuisineParams(f) + MinPriceParams(f) + MaxPriceParams(f) + BagTypeParams(f)
  {
    MaxPriceNumbered(f);
    if BagTypesGiven(f) { AddListNumbered(AfterMaxPrice(f), BagType, f.bagTypes.value); }
  }

  lemma BuildNumbered(f: FilterSet)
    ensures Numbered(AfterTimes(f))
    ensures AfterTimes(f).params == ExpectedParams(f)
  {
    BagTypesNumbered(f);
    if TimeGiven(f) {
      var b := AfterBagTypes(f);
      AddOneNumbered(b, TimeWithin(b.next), PText(f.timeStart.value));
      var b' := AddTime(b, f.timeStart.value);
      AddOneNumbered(b', TimeWithin(b'.next), PText(f.timeEnd.value));
    }
  }

  /** Each parameter position `1..|params|` is referred to by exactly one placeholder, and no other index is used. */
  lemma PlaceholdersExactlyOnce(f: FilterSet)
    ensures var q := BuildQuery(f);
      && |AllSlots(q.conditions)| == |q.params|
      && (forall k :: k in AllSlots(q.conditions) <==> 1 <= k <= |q.params|)
      && (forall i, j :: 0 <= i < j < |AllSlots(q.conditions)| ==> AllSlots(q.conditions)[i] < AllSlots(q.conditions)[j])
  {
    var q := BuildQuery(f);
    var s := AllSlots(q.conditions);
    forall k | 1 <= k <= |q.params| ensures k in s { assert s[k - 1] == k; }
  }

  /** Latitude, longitude and maximum distance never reach the query. */
  lemma GeoNotInQuery(f: FilterSet, d: Option<real>, lat: Option<real>, lon: Option<real>)
    ensures BuildQuery(f.(maxDistance := d, latitude := lat, longitude := lon)) == BuildQuery(f)
  {
    var g := f.(maxDistance := d, latitude := lat, longitude := lon);
    assert CuisinesGiven(g) == CuisinesGiven(f) && BagTypesGiven(g) == BagTypesGiven(f) && TimeGiven(g) == TimeGiven(f);
    assert AfterCuisines(g) == AfterCuisines(f);
    assert AfterMinPrice(g) == AfterMinPrice(f);
    assert AfterMaxPrice(g) == AfterMaxPrice(f);
    assert AfterBagTypes(g) == AfterBagTypes(f);
    assert AfterTimes(g) == AfterTimes(f);
  }

  // ---------------------------------------------------------------------------
  // The shape of the WHERE clause.

  /** What a condition tests, without its placeholders. */
  datatype Kind = KLive | KList(column: ListColumn) | KBound(bound: Bound) | KTime

  function KindOf(c: Condition): Kind {
    match c
    case LiveOnly => KLive
    case InList(col, _) => KList(col)
    case PriceBound(b, _) => KBound(b)
    case TimeWithin(_) => KTime
  }

  function Kinds(cs: seq<Condition>): (r: seq<Kind>)
    ensures |r| == |cs|
    ensures forall i :: 0 <= i < |cs| ==> r[i] == KindOf(cs[i])
  {
    seq(|cs|, i requires 0 <= i < |cs| => KindOf(cs[i]))
  }

  /** The WHERE clause a filter set yields: the live flag always and first;
      each list and each price bound exactly when its field is set (a price
      bound of `0.0` included, the test being `is not None`); two time
      conditions exactly when both times are given; nothing for the
      geographic fields. */
  function ExpectedKinds(f: FilterSet): seq<Kind> {
    KindsThroughBagTypes(f) + (if TimeGiven(f) then [KTime, KTime] else [])
  }

  function KindsThroughCuisines(f: FilterSet): seq<Kind> {
    [KLive] + (if CuisinesGiven(f) then [KList(Cuisine)] else [])
  }

  function KindsThroughMinPrice(f: FilterSet): seq<Kind> {
    KindsThroughCuisines(f) + (if f.minPrice.Some? then [KBound(AtLeast)] else [])
  }

  function KindsThroughMaxPrice(f: FilterSet): seq<Kind> {
    KindsThroughMinPrice(f) + (if f.maxPrice.Some? then [KBound(AtMost)] else [])
  }

  function KindsThroughBagTypes(f: FilterSet): seq<Kind> {
    KindsThroughMaxPrice(f) + (if BagTypesGiven(f) then [KList(BagType)] else [])
  }

  lemma KindsSnoc(cs: seq<Condition>, c: Condition)
    ensures Kinds(cs + [c]) == Kinds(cs) + [KindOf(c)]
  {
  }

  lemma CuisinesShape(f: FilterSet)
    ensures Kinds(AfterCuisines(f).conditions) == KindsThroughCuisines(f)
  {
    assert Kinds([LiveOnly]) == [KLive];
    if CuisinesGiven(f) { KindsSnoc(Start.conditions, AfterCuisines(f).conditions[1]); }
  }

  lemma MinPriceShape(f: FilterSet)
    ensures Kinds(AfterMinPrice(f).conditions) == KindsThroughMinPrice(f)
  {
    CuisinesShape(f);
    var b := AfterCuisines(f);
    if f.minPrice.Some? { KindsSnoc(b.conditions, PriceBound(AtLeast, b.next)); }
  }

  lemma MaxPriceShape(f: FilterSet)
    ensures Kinds(AfterMaxPrice(f).conditions) == KindsThroughMaxPrice(f)
  {
    MinPriceShape(f);
    var b := AfterMinPrice(f);
    if f.maxPrice.Some? { KindsSnoc(b.conditions, PriceBound(AtMost, b.next)); }
  }

  lemma BagTypesShape(f: FilterSet)
    ensures Kinds(AfterBagTypes(f).conditions) == KindsThroughBagTypes(f)
  {
    MaxPriceShape(f);
    var b := AfterMaxPrice(f);
    if BagTypesGiven(f) { KindsSnoc(b.conditions, InList(BagType, Slots(b.next, |f.bagTypes.value|))); }
  }

  lemma BuildShape(f: FilterSet)
    ensures Kinds(AfterTimes(f).conditions) == ExpectedKinds(f)
  {
    BagTypesShape(f);
    if TimeGiven(f) {
      var b := AfterBagTypes(f);
      var b' := AddTime(b, f.timeStart.value);
      KindsSnoc(b.conditions, TimeWithin(b.next));
      KindsSnoc(b'.conditions, TimeWithin(b'.next));
    }
  }

  lemma NoTimeBeforeTimes(f: FilterSet)
    ensures |KindsThroughBagTypes(f)| > 0 && KindsThroughBagTypes(f)[0] == KLive
    ensures KTime !in KindsThroughBagTypes(f)
  {
    var k1 := KindsThroughCuisines(f);
    var k2 := KindsThroughMinPrice(f);
    var k3 := KindsThroughMaxPrice(f);
    assert KTime !in k1 && k1[0] == KLive;
    assert KTime !in k2 && k2[0] == KLive;
    assert KTime !in k3 && k3[0] == KLive;
  }

  /** The live flag is the first condition whatever the filters. */
  lemma LiveFirst(f: FilterSet)
    ensures BuildQuery(f).conditions[0] == LiveOnly
  {
    var cs := BuildQuery(f).conditions;
    NoTimeBeforeTimes(f);
    assert Kinds(cs)[0] == KLive;
  }

  /** A time condition appears exactly when both times are given. */
  lemma TimeOnlyWhenBothGiven(f: FilterSet)
    ensures KTime in Kinds(BuildQuery(f).conditions) <==> TimeGiven(f)
  {
    NoTimeBeforeTimes(f);
    var k := KindsThroughBagTypes(f);
    assert Kinds(BuildQuery(f).conditions) == ExpectedKinds(f);
    if TimeGiven(f) {
      assert ExpectedKinds(f)[|k|] == KTime;
    }
  }

  /** Each price bound yields its condition exactly when that bound is set,
      whatever the other bound is and whatever its value, `0.0` included. */
  lemma PriceBoundsIndependent(f: FilterSet)
    ensures KBound(AtLeast) in Kinds(BuildQuery(f).conditions) <==> f.minPrice.Some?
    ensures KBound(AtMost) in Kinds(BuildQuery(f).conditions) <==> f.maxPrice.Some?
  {
    var k1 := KindsThroughCuisines(f);
    var k2 := KindsThroughMinPrice(f);
    var k3 := KindsThroughMaxPrice(f);
    var k4 := KindsThroughBagTypes(f);
    assert KBound(AtLeast) !in k1 && KBound(AtMost) !in k1;
    assert KBound(AtLeast) in k2 <==> f.minPrice.Some?;
    assert KBound(AtMost) !in k2;
    assert KBound(AtLeast) in k3 <==> f.minPrice.Some?;
    assert KBound(AtMost) in k3 <==> f.maxPrice.Some?;
    assert KBound(AtLeast) in k4 <==> f.minPrice.Some?;
    assert KBound(AtMost) in k4 <==> f.maxPrice.Some?;
  }

  // ---------------------------------------------------------------------------
  // ORDER BY.

  /** The six recognised values of `sort`. */
  const SortKeys: seq<string> := ["priceLowToHigh", "priceHighToLow", "ratingHighToLow", "ratingLowToHigh", "nameAZ", "nameZA"]

  const DefaultOrder := OrderBy(Rating, Desc)

  /** `build_order_by_clause`. */
  function OrderFor(sort: Option<string>): (c: OrderClause)
    ensures sort.Some? && sort.value in SortKeys ==> SortKeyFor(c) == sort.value
    ensures !(sort.Some? && sort.value in SortKeys) ==> c == DefaultOrder
  {
    if sort.None? || sort.value == "" then DefaultOrder
    else match sort.value
      case "priceLowToHigh" => OrderBy(MinSalePrice, Asc)
      case "priceHighToLow" => OrderBy(MinSalePrice, Desc)
      case "ratingHighToLow" => OrderBy(Rating, Desc)
      case "ratingLowToHigh" => OrderBy(Rating, Asc)
      case "nameAZ" => OrderBy(Name, Asc)
      case "nameZA" => OrderBy(Name, Desc)
      case _ => DefaultOrder
  }

  /** The `sort` value that selects a clause. */
  function SortKeyFor(c: OrderClause): (k: string)
    ensures k in SortKeys
  {
    match c
    case OrderBy(MinSalePrice, Asc) => "priceLowToHigh"
    case OrderBy(MinSalePrice, Desc) => "priceHighToLow"
    case OrderBy(Rating, Desc) => "ratingHighToLow"
    case OrderBy(Rating, Asc) => "ratingLowToHigh"
    case OrderBy(Name, Asc) => "nameAZ"
    case OrderBy(Name, Desc) => "nameZA"
  }

  /** Every clause is selected by its key, the six keys select six different
      clauses, and an absent, empty or unrecognised `sort` gives rating descending. */
  lemma OrderByMapping(c: OrderClause, s: string)
    ensures OrderFor(Some(SortKeyFor(c))) == c
    ensures forall k1, k2 :: k1 in SortKeys && k2 in SortKeys && OrderFor(Some(k1)) == OrderFor(Some(k2)) ==> k1 == k2
    ensures s !in SortKeys ==> OrderFor(Some(s)) == DefaultOrder
    ensures OrderFor(None) == DefaultOrder == OrderFor(Some(""))
  {
  }

  // ---------------------------------------------------------------------------
  // What the WHERE clause means.

  /** An inventory row as the WHERE clause sees it (`order_*_time` already cast to a time of day). */
  datatype Item = Item(salePrice: real, bagType: string, orderStart: int, orderEnd: int)

  /** One row of `Restaurant LEFT JOIN Inventory`: the restaurant's columns and
      the joined inventory row, `None` when the restaurant has no inventory
      (its `i.*` columns are NULL, so every test on them fails). */
  datatype Candidate = Candidate(live: bool, cuisine: string, item: Option<Item>)

  /** The value bound to placeholder `$k`. */
  function Arg(params: seq<Param>, k: int): Option<Param> {
    if 1 <= k <= |params| then Some(params[k - 1]) else None
  }

  predicate InWindow(item: Item, t: int) {
    item.orderStart <= t <= item.orderEnd
  }

  /** One condition evaluated on a candidate, with `clock` the `::time` cast of a text parameter. */
  predicate CondHolds(c: Condition, params: seq<Param>, cand: Candidate, clock: string -> int) {
    match c
    case LiveOnly => cand.live
    case InList(Cuisine, slots) =>
      exists j :: 0 <= j < |slots| && Arg(params, slots[j]) == Some(PText(cand.cuisine))
    case InList(BagType, slots) =>
      cand.item.Some? && exists j :: 0 <= j < |slots| && Arg(params, slots[j]) == Some(PText(cand.item.value.bagType))
    case PriceBound(bound, k) =>
      cand.item.Some? && Arg(params, k).Some? && Arg(params, k).value.PNum? &&
      (if bound == AtLeast then cand.item.value.salePrice >= Arg(params, k).value.num
       else cand.item.value.salePrice <= Arg(params, k).value.num)
    case TimeWithin(k) =>
      cand.item.Some? && Arg(params, k).Some? && Arg(params, k).value.PText? &&
      InWindow(cand.item.value, clock(Arg(params, k).value.text))
  }

  /** The conjunction of the conditions (`WHERE c1 AND c2 AND ...`). */
  predicate Holds(cs: seq<Condition>, params: seq<Param>, cand: Candidate, clock: string -> int) {
    forall i :: 0 <= i < |cs| ==> CondHolds(cs[i], params, cand, clock)
  }

  /** The reference reading of a filter set: which joined rows it lets through. */
  predicate Admits(f: FilterSet, cand: Candidate, clock: string -> int) {
    && AdmitsThroughBagTypes(f, cand)
    && (TimeGiven(f) ==>
          && cand.item.Some?
          && InWindow(cand.item.value, clock(f.timeStart.value))
          && InWindow(cand.item.value, clock(f.timeEnd.value)))
  }

  predicate AdmitsThroughCuisines(f: FilterSet, cand: Candidate) {
    cand.live && (CuisinesGiven(f) ==> cand.cuisine in f.cuisines.value)
  }

  predicate AdmitsThroughMinPrice(f: FilterSet, cand: Candidate) {
    AdmitsThroughCuisines(f, cand)
    && (f.minPrice.Some? ==> cand.item.Some? && cand.item.value.salePrice >= f.minPrice.value)
  }

  predicate AdmitsThroughMaxPrice(f: FilterSet, cand: Candidate) {
    AdmitsThroughMinPrice(f, cand)
    && (f.maxPrice.Some? ==> cand.item.Some? && cand.item.value.salePrice <= f.maxPrice.value)
  }

  predicate AdmitsThroughBagTypes(f: FilterSet, cand: Candidate) {
    AdmitsThroughMaxPrice(f, cand)
    && (BagTypesGiven(f) ==> cand.item.Some? && cand.item.value.bagType in f.bagTypes.value)
  }

  /** No condition refers past the parameters bound so far. */
  predicate Bounded(b: Builder) {
    forall i, k :: 0 <= i < |b.conditions| && k in SlotsOf(b.conditions[i]) ==> 1 <= k <= |b.params|
  }

  /** Binding more parameters leaves a condition that only refers to earlier ones unchanged. */
  lemma Stable(c: Condition, params: seq<Param>, more: seq<Param>, cand: Candidate, clock: string -> int)
    requires forall k :: k in SlotsOf(c) ==> 1 <= k <= |params|
    ensures CondHolds(c, params + more, cand, clock) == CondHolds(c, params, cand, clock)
  {
    forall k | k in SlotsOf(c) ensures Arg(params + more, k) == Arg(params, k) { }
    match c
    case InList(_, slots) =>
      assert forall j :: 0 <= j < |slots| ==> slots[j] in SlotsOf(c);
    case PriceBound(_, k) =>
      assert k in SlotsOf(c);
    case TimeWithin(k) =>
      assert k in SlotsOf(c);
    case LiveOnly =>
  }

  /** Appending a condition together with its parameters conjoins its test. */
  lemma Extend(b: Builder, c: Condition, more: seq<Param>, cand: Candidate, clock: string -> int)
    requires Bounded(b)
    ensures Holds(b.conditions + [c], b.params + more, cand, clock)
        <==> Holds(b.conditions, b.params, cand, clock) && CondHolds(c, b.params + more, cand, clock)
  {
    var cs := b.conditions + [c];
    forall i | 0 <= i < |b.conditions|
      ensures CondHolds(cs[i], b.params + more, cand, clock) == CondHolds(b.conditions[i], b.params, cand, clock)
    {
      Stable(b.conditions[i], b.params, more, cand, clock);
    }
    if Holds(cs, b.params + more, cand, clock) {
      assert CondHolds(cs[|b.conditions|], b.params + more, cand, clock);
    }
  }

  /** An `IN` list numbered from the running index tests membership in exactly the values it bound. */
  lemma ListMeaning(b: Builder, column: ListColumn, values: seq<string>, x: string)
    requires b.next == |b.params| + 1
    ensures var params := b.params + Texts(values);
            var slots := Slots(b.next, |values|);
      (exists j :: 0 <= j < |slots| && Arg(params, slots[j]) == Some(PText(x))) <==> x in values
  {
    var params := b.params + Texts(values);
    var slots := Slots(b.next, |values|);
    forall j | 0 <= j < |slots| ensures Arg(params, slots[j]) == Some(PText(values[j])) {
      assert params[slots[j] - 1] == Texts(values)[j];
    }
    if x in values {
      var j :| 0 <= j < |values| && values[j] == x;
      assert Arg(params, slots[j]) == Some(PText(x));
    }
  }

  lemma AddListBounded(b: Builder, column: ListColumn, values: seq<string>)
    requires Bounded(b) && b.next == |b.params| + 1
    ensures Bounded(AddList(b, column, values))
  {
    var b' := AddList(b, column, values);
    forall i, k | 0 <= i < |b'.conditions| && k in SlotsOf(b'.conditions[i])
      ensures 1 <= k <= |b'.params|
    {
      if i < |b.conditions| { assert b'.conditions[i] == b.conditions[i]; }
    }
  }

  lemma AddOneBounded(b: Builder, c: Condition, p: Param)
    requires Bounded(b) && b.next == |b.params| + 1 && SlotsOf(c) == [b.next]
    ensures Bounded(Builder(b.conditions + [c], b.params + [p], b.next + 1))
  {
    var b' := Builder(b.conditions + [c], b.params + [p], b.next + 1);
    forall i, k | 0 <= i < |b'.conditions| && k in SlotsOf(b'.conditions[i])
      ensures 1 <= k <= |b'.params|
    {
      if i < |b.conditions| { assert b'.conditions[i] == b.conditions[i]; }
    }
  }

  lemma CuisinesMeaning(f: FilterSet, cand: Candidate, clock: string -> int)
    ensures Bounded(AfterCuisines(f)) && AfterCuisines(f).next == |AfterCuisines(f).params| + 1
    ensures Holds(AfterCuisines(f).conditions, AfterCuisines(f).params, cand, clock) <==> AdmitsThroughCuisines(f, cand)
  {
    assert Bounded(Start);
    assert Holds(Start.conditions, Start.params, cand, clock) <==> cand.live by {
      assert Start.conditions[0] == LiveOnly;
    }
    if CuisinesGiven(f) {
      var vs := f.cuisines.value;
      Extend(Start, InList(Cuisine, Slots(1, |vs|)), Texts(vs), cand, clock);
      ListMeaning(Start, Cuisine, vs, cand.cuisine);
      AddListBounded(Start, Cuisine, vs);
    }
  }

  lemma MinPriceMeaning(f: FilterSet, cand: Candidate, clock: string -> int)
    ensures Bounded(AfterMinPrice(f)) && AfterMinPrice(f).next == |AfterMinPrice(f).params| + 1
    ensures Holds(AfterMinPrice(f).conditions, AfterMinPrice(f).params, cand, clock) <==> AdmitsThroughMinPrice(f, cand)
  {
    CuisinesMeaning(f, cand, clock);
    var b := AfterCuisines(f);
    if f.minPrice.Some? {
      var c := PriceBound(AtLeast, b.next);
      Extend(b, c, [PNum(f.minPrice.value)], cand, clock);
      assert Arg(b.params + [PNum(f.minPrice.value)], b.next) == Some(PNum(f.minPrice.value));
      AddOneBounded(b, c, PNum(f.minPrice.value));
    }
  }

  lemma MaxPriceMeaning(f: FilterSet, cand: Candidate, clock: string -> int)
    ensures Bounded(AfterMaxPrice(f)) && AfterMaxPrice(f).next == |AfterMaxPrice(f).params| + 1
    ensures Holds(AfterMaxPrice(f).conditions, AfterMaxPrice(f).params, cand, clock) <==> AdmitsThroughMaxPrice(f, cand)
  {
    MinPriceMeaning(f, cand, clock);
    var b := AfterMinPrice(f);
    if f.maxPrice.Some? {
      var c := PriceBound(AtMost, b.next);
      Extend(b, c, [PNum(f.maxPrice.value)], cand, clock);
      assert Arg(b.params + [PNum(f.maxPrice.value)], b.next) == Some(PNum(f.maxPrice.value));
      AddOneBounded(b, c, PNum(f.maxPrice.value));
    }
  }

  lemma BagTypesMeaning(f: FilterSet, cand: Candidate, clock: string -> int)
    ensures Bounded(AfterBagTypes(f)) && AfterBagTypes(f).next == |AfterBagTypes(f).params| + 1
    ensures Holds(AfterBagTypes(f).conditions, AfterBagTypes(f).params, cand, clock) <==> AdmitsThroughBagTypes(f, cand)
  {
    MaxPriceMeaning(f, cand, clock);
    var b := AfterMaxPrice(f);
    if BagTypesGiven(f) {
      var vs := f.bagTypes.value;
      Extend(b, InList(BagType, Slots(b.next, |vs|)), Texts(vs), cand, clock);
      if cand.item.Some? {
        ListMeaning(b, BagType, vs, cand.item.value.bagType);
      }
      AddListBounded(b, BagType, vs);
    }
  }

  /** The conditions `build_restaurant_query` produces, each placeholder read
      from the parameter list, accept a joined row exactly when the filter set
      admits it: live; cuisine among the listed ones; sale price within each
      given bound; bag type among the listed ones; and, when both times are
      given, each of the two times inside the item's ordering window (two
      point tests, not an overlap test). */
  lemma QueryMeaning(f: FilterSet, cand: Candidate, clock: string -> int)
    ensures Holds(BuildQuery(f).conditions, BuildQuery(f).params, cand, clock) <==> Admits(f, cand, clock)
  {
    BagTypesMeaning(f, cand, clock);
    if TimeGiven(f) {
      var b := AfterBagTypes(f);
      var ts := f.timeStart.value;
      var te := f.timeEnd.value;
      Extend(b, TimeWithin(b.next), [PText(ts)], cand, clock);
      assert Arg(b.params + [PText(ts)], b.next) == Some(PText(ts));
      AddOneBounded(b, TimeWithin(b.next), PText(ts));
      var b' := AddTime(b, ts);
      Extend(b', TimeWithin(b'.next), [PText(te)], cand, clock);
      assert Arg(b'.params + [PText(te)], b'.next) == Some(PText(te));
    }
  }
}

=== FILE: restaurant_detail.dfy ===
/** The restaurant-detail endpoint's `handler`: resolve `restaurant_id` and
    `branch_id` (path parameters before query parameters), check both before
    touching the database, then look the pair up: 200 with the row, 404
    naming both ids, 400 for a `ValueError`, 500 otherwise. */
module RestaurantDetail {
  import opened Opt
  import opened Http
  import opened PyStr

  /** The row `SELECT *` returns, column by column. */
  datatype Restaurant = Restaurant(columns: map<string, string>)

  /** The one statement: the lookup by both ids. */
  datatype Statement = SelectRestaurant(restaurantId: string, branchId: string)

  const RestaurantIdRequired := "restaurant_id is required"
  const BranchIdRequired := "branch_id is required"

  /** `event.get(...) or {}` for either parameter map. */
  function Params(m: Nullable<map<string, string>>): map<string, string> {
    m.OrElse(map[])
  }

  /** `path.get(key) or query.get(key)`: the path's value when it is a
      non-empty string, otherwise whatever the query has (possibly nothing). */
  function Resolve(path: map<string, string>, query: map<string, string>, key: string): (r: Option<string>)
    ensures key in path && path[key] != "" ==> r == Some(path[key])
    ensures !(key in path && path[key] != "") ==> (r.Some? <==> key in query)
    ensures !(key in path && path[key] != "") && key in query ==> r == Some(query[key])
  {
    if key in path && path[key] != "" then Some(path[key])
    else if key in query then Some(query[key])
    else None
  }

  /** `not value` for a resolved id. */
  predicate Missing(id: Option<string>) {
    id.None? || id.value == ""
  }

  function RestaurantId(event: Event): Option<string> {
    Resolve(Params(event.pathParameters), Params(event.queryStringParameters), "restaurant_id")
  }

  function BranchId(event: Event): Option<string> {
    Resolve(Params(event.pathParameters), Params(event.queryStringParameters), "branch_id")
  }

  function NotFoundMessage(restaurantId: string, branchId: string): string {
    "Restaurant with restaurant_id " + restaurantId + " and branch_id " + branchId + " not found"
  }

  /** The 404 message names both ids. */
  lemma NotFoundNamesBoth(restaurantId: string, branchId: string)
    ensures Contains(NotFoundMessage(restaurantId, branchId), restaurantId)
    ensures Contains(NotFoundMessage(restaurantId, branchId), branchId)
  {
    var m := NotFoundMessage(restaurantId, branchId);
    ContainsMiddle("Restaurant with restaurant_id ", restaurantId, " and branch_id " + branchId + " not found");
    assert m == "Restaurant with restaurant_id " + restaurantId + (" and branch_id " + branchId + " not found");
    ContainsMiddle("Restaurant with restaurant_id " + restaurantId + " and branch_id ", branchId, " not found");
  }

  /** The three `except` clauses: a database error is a 500, a `ValueError`
      a 400 quoting it, anything else a 500. */
  function Catch(e: Exc): (r: Response<Restaurant>)
    ensures e.ValueErr? <==> r.status == 400
    ensures e.ValueErr? ==> r.body == Failure("Bad Request", "Invalid parameter value: " + e.msg)
    ensures !e.ValueErr? ==> r == Unhandled(e)
  {
    if e.ValueErr? then Response(400, Failure("Bad Request", "Invalid parameter value: " + e.msg))
    else Unhandled(e)
  }

  /** `handler` of the detail endpoint. `connect` is the outcome of reading
      the configuration and opening the connection (an invalid `DB_PORT` is
      a `ValueError` there), `fetched` the row the lookup returns, if any, or
      the error it raises. */
  function Handle(event: Event, connect: DbReply<()>, fetched: DbReply<Option<Restaurant>>)
    : (o: Outcome<Restaurant, Statement>)
    ensures Missing(RestaurantId(event)) ==> o == Outcome(BadRequest(RestaurantIdRequired), [])
    ensures !Missing(RestaurantId(event)) && Missing(BranchId(event)) ==> o == Outcome(BadRequest(BranchIdRequired), [])
    ensures !Missing(RestaurantId(event)) && !Missing(BranchId(event)) && connect.Raised? ==>
      o == Outcome(Catch(connect.error), [])
    ensures o.response.status == 404 ==>
      var rid := RestaurantId(event).value;
      var bid := BranchId(event).value;
      && o.response.body == Failure("Not Found", NotFoundMessage(rid, bid))
      && Statements(o.trace) == [SelectRestaurant(rid, bid)]
      && Released(o.trace)
    ensures o.response.status == 200 ==>
      && fetched.Fetched? && fetched.value.Some?
      && o.response.body == Success(fetched.value.value)
      && Statements(o.trace) == [SelectRestaurant(RestaurantId(event).value, BranchId(event).value)]
      && Released(o.trace)
    ensures o.response.status in {200, 400, 404, 500}
    ensures !Missing(RestaurantId(event)) && !Missing(BranchId(event)) && connect.Fetched? ==>
      && (fetched.Raised? ==> o.response == Catch(fetched.error))
      && (fetched == Fetched(None) ==>
            o.response == Response(404, Failure("Not Found", NotFoundMessage(RestaurantId(event).value, BranchId(event).value))))
      && (fetched.Fetched? && fetched.value.Some? ==> o.response == Response(200, Success(fetched.value.value)))
  {
    var rid := RestaurantId(event);
    var bid := BranchId(event);
    if Missing(rid) then Outcome(BadRequest(RestaurantIdRequired), [])
    else if Missing(bid) then Outcome(BadRequest(BranchIdRequired), [])
    else if connect.Raised? then Outcome(Catch(connect.error), [])
    else
      var lookup := SelectRestaurant(rid.value, bid.value);
      StatementsOfSessions(lookup, lookup);
      var trace := [Open, Exec(lookup)];
      match fetched
      case Raised(e) => Outcome(Catch(e), trace)
      case Fetched(record) =>
        assert trace + [Close] == [Open, Exec(lookup), Close];
        assert (trace + [Close])[0].Open?;
        if record.None? then
          Outcome(Response(404, Failure("Not Found", NotFoundMessage(rid.value, bid.value))), trace + [Close])
        else Outcome(Response(200, Success(record.value)), trace + [Close])
  }

  /** Both ids are checked before the connection is opened: a request
      rejected for a missing id leaves no trace on the database. */
  lemma ValidatedBeforeConnecting(event: Event, connect: DbReply<()>, fetched: DbReply<Option<Restaurant>>)
    requires Missing(RestaurantId(event)) || Missing(BranchId(event))
    ensures Handle(event, connect, fetched).trace == []
    ensures Handle(event, connect, fetched).response.status == 400
    ensures Missing(RestaurantId(event)) ==>
      Handle(event, connect, fetched).response.body.message == RestaurantIdRequired
  {
  }

  /** A truthy path value wins over the query; an empty or absent one defers to the query. */
  lemma PathBeforeQuery(path: map<string, string>, query: map<string, string>, key: string, x: string, y: string)
    requires x != ""
    ensures Resolve(path[key := x], query[key := y], key) == Some(x)
    ensures Resolve(path[key := ""], query[key := y], key) == Some(y)
    ensures key !in path ==> Resolve(path, query[key := y], key) == Some(y)
  {
  }

  /** A `null` or absent parameter map reads as empty. */
  lemma AbsentMapsAreEmpty(event: Event)
    requires event.pathParameters.Null? && event.queryStringParameters.Missing?
    ensures Missing(RestaurantId(event)) && Missing(BranchId(event))
  {
  }

  // ---------------------------------------------------------------------------
  // Connection release.

  /** As written, an error raised by the lookup skips the close: the request
      is answered by the `except` clauses with the connection still open. */
  lemma FailedLookupLeavesConnectionOpen(event: Event, e: Exc)
    requires !Missing(RestaurantId(event)) && !Missing(BranchId(event))
    ensures var o := Handle(event, Fetched(()), Raised(e));
      o.response == Catch(e) && !Released(o.trace)
  {
    var o := Handle(event, Fetched(()), Raised(e));
    assert o.trace[0].Open? && o.trace[|o.trace| - 1].Exec?;
  }

  /** The handler with the connection closed on every exit path: the same
      responses and statements, and a trace that always ends closed. */
  function HandleReleasing(event: Event, connect: DbReply<()>, fetched: DbReply<Option<Restaurant>>)
    : (o: Outcome<Restaurant, Statement>)
    ensures Released(o.trace)
    ensures o.response == Handle(event, connect, fetched).response
    ensures Statements(o.trace) == Statements(Handle(event, connect, fetched).trace)
    ensures !Missing(RestaurantId(event)) && !Missing(BranchId(event)) && connect.Fetched? && fetched.Raised? ==>
      o.trace == [Open, Exec(SelectRestaurant(RestaurantId(event).value, BranchId(event).value)), Close]
  {
    var o := Handle(event, connect, fetched);
    ReleaseOpenSessions(SelectRestaurant(RestaurantId(event).GetOr(""), BranchId(event).GetOr("")));
    Outcome(o.response, Release(o.trace))
  }
}

=== FILE: seqs.dfy ===
/** Order-preserving selection from a sequence, the shape shared by Python
    list comprehensions with an `if` and by the distance post-filter. */
module Seqs {

  /** `a` can be obtained from `b` by deleting elements, keeping order. */
  predicate Subsequence<T(==)>(a: seq<T>, b: seq<T>)
    decreases |b|
  {
    |a| == 0 || (|b| > 0 && ((a[0] == b[0] && Subsequence(a[1..], b[1..])) || Subsequence(a, b[1..])))
  }

  /** The elements of `s` satisfying `p`, in order (`[x for x in s if p(x)]`). */
  function Filter<T>(s: seq<T>, p: T -> bool): (r: seq<T>)
    ensures |r| <= |s|
    ensures forall i :: 0 <= i < |r| ==> p(r[i])
    decreases |s|
  {
    if |s| == 0 then []
    else if p(s[0]) then [s[0]] + Filter(s[1..], p)
    else Filter(s[1..], p)
  }

  /** Filtering one more element at the end extends the result by that element exactly when it is kept. */
  lemma {:induction false} FilterSnoc<T>(s: seq<T>, x: T, p: T -> bool)
    ensures Filter(s + [x], p) == Filter(s, p) + (if p(x) then [x] else [])
    decreases |s|
  {
    if |s| == 0 {
      assert s + [x] == [x];
      assert Filter([x][1..], p) == [];
    } else {
      assert (s + [x])[0] == s[0];
      assert (s + [x])[1..] == s[1..] + [x];
      FilterSnoc(s[1..], x, p);
    }
  }

  /** The selection is an order-preserving subsequence of the input that holds
      every kept element exactly as often as the input does, and no other. */
  lemma {:induction false} FilterCharacterization<T>(s: seq<T>, p: T -> bool)
    ensures Subsequence(Filter(s, p), s)
    ensures forall x :: multiset(Filter(s, p))[x] == (if p(x) then multiset(s)[x] else 0)
    decreases |s|
  {
    if |s| > 0 {
      FilterCharacterization(s[1..], p);
      assert s == [s[0]] + s[1..];
      assert multiset(s) == multiset{s[0]} + multiset(s[1..]);
      if p(s[0]) {
        var r := Filter(s, p);
        assert r[0] == s[0] && r[1..] == Filter(s[1..], p);
      } else {
        SubsequenceDropHead(Filter(s[1..], p), s);
      }
    }
  }

  /** Being a subsequence of the tail implies being a subsequence of the whole. */
  lemma SubsequenceDropHead<T>(a: seq<T>, b: seq<T>)
    requires |b| > 0 && Subsequence(a, b[1..])
    ensures Subsequence(a, b)
  {
  }

  /** Membership form: an element occurs in the selection iff it occurs in the input and is kept. */
  lemma FilterMembership<T>(s: seq<T>, p: T -> bool)
    ensures forall x :: x in Filter(s, p) <==> x in s && p(x)
  {
    FilterCharacterization(s, p);
    forall x
      ensures x in Filter(s, p) <==> x in s && p(x)
    {
      assert x in Filter(s, p) <==> multiset(Filter(s, p))[x] > 0;
      assert x in s <==> multiset(s)[x] > 0;
    }
  }
}
